=== FILE: README.md ===
# zfs-backup-manager retention core in Dafny

This project models the part of zfs-backup-manager that decides which ZFS
snapshots to create and destroy. Once a day the manager walks its configured
datasets and takes today's snapshot of each dataset that is due. It then
prunes that dataset's managed snapshots to what its daily, weekly and
monthly retention tiers keep.

The model is functional:

- **`Calendar`**: a date is its proleptic Gregorian ordinal (1 is
  0001-01-01, 3652059 is 9999-12-31, as `date.toordinal()`). It has a
  civil year/month/day conversion with its inverse, the ISO weekday and the
  day of the month.
- **`Naming`**: the snapshot name `<dataset>@<prefix><YYYYMMDD>`, its
  eight-digit date stamp, and the stamp read back.
- **`Catalog`**: the backend listing as a sequence of (dataset, date)
  entries, already parsed. It also holds each dataset's dates sorted newest
  first.
- **`Configuration`**: `get_dataset_configs`, the three-level resolution
  of every dataset field (the dataset table, then the global table, then a
  default) into one `Policy` per dataset, or the index of the first table
  without a name.
- **`Retention`**: the three tiers, the keep set and the deletion set.
  They are related to an independent rank-based definition ("kept exactly
  when fewer than *n* eligible snapshots are newer").
- **`Scheduler`**: the due check and the per-dataset decision. It also runs
  whole passes over a backend listing: today's snapshot is created and the
  deletion set destroyed, with every backend operation taken to succeed.
  This supports the idempotence of a run.
- **`Scenarios`**: worked examples on concrete dates.

What the code does, in the cases that are easy to misread:

- When today's snapshot already exists, the `continue` at line 122 of
  `src/zfs_backup_manager/__init__.py` skips the pruning as well as the
  create (`Scheduler.Decide`, `Scheduler.AlreadyExistsNoAction`).
- The per-dataset catalog is sorted (line 49) but not deduplicated. Where
  strictness matters it is derived from unique listing entries
  (`Catalog.SnapshotsOfStrictlyDescending`); two backend names that differ
  only in the case of the prefix parse to the same entry (see
  `Scheduler.Step` under "## Left out").
- The keep counts are never validated. A negative count follows Python's
  slice `s[:k]` and keeps all but the oldest `-k` dates of its tier
  (`Retention.NegativeCountKeepsAllButOldest`). Such a tier never makes the
  dataset due.
- A second run on the same day issues no create and no destroy as long as
  no snapshot is dated after today (`Scheduler.NoFuture`), so it ends where
  the first run did (`Scheduler.RunIdempotent`). With a snapshot dated
  after today, today's new snapshot can fall outside the daily tier and be
  destroyed in the same pass, and the next run creates it again; the model
  does not state idempotence for that case.

## Model

| member | source | states |
|---|---|---|
| Configuration.Lookup | src/zfs_backup_manager/__init__.py:70-75 | a field is the dataset's own value when present, else the global value when present, else the built-in default |
| Configuration.ResolveEntry | src/zfs_backup_manager/__init__.py:68-76 | every field of the resolved policy is inherited dataset-then-global-then-default, with the defaults of lines 16-21, and the name is the table's name |
| Configuration.ResolveFrom | src/zfs_backup_manager/__init__.py:62-77 | from index `i` on: success exactly when every table has a name, one policy per table in table order, each resolved from its own table; otherwise the error names the first table without a name |
| Configuration.ResolveDatasetConfigs | src/zfs_backup_manager/__init__.py:54-79 | one policy per dataset table, in order, each field resolved in three levels; a table without `name` is an error naming its index, all earlier tables being named; no `datasets` key means no policies |
| Calendar.YearOfEra | src/zfs_backup_manager/__init__.py:145 | within a 400-year cycle the year found is 0..399, and the day left over fits that year: below 366 when the February ending it has a 29th (Gregorian leap rule), below 365 otherwise |
| Calendar.MonthFromMarch | src/zfs_backup_manager/__init__.py:145 | the month counted from March is 0..11 and the day offset left over is below that month's length (March 31, April 30, ..., January 31, February 29; that February's 29th exists only in leap years follows from the day-of-year bound of `Calendar.YearOfEra`) |
| Calendar.CivilFromDays | src/zfs_backup_manager/__init__.py:145 | every ordinal date has a year 1..9999, a month 1..12 and a day 1..31 (that the day exists in its month is `Calendar.CivilFromDaysValid`) |
| Calendar.CivilOfCycle | src/zfs_backup_manager/__init__.py:145 | the day `doe` of 400-year cycle `era` falls in a month 1..12 on a day 1..31, in a year of that cycle; after its first 306 days it is past the cycle's first year, and outside its last 60 days it is before the next cycle |
| Calendar.CivilOfCycleValid | src/zfs_backup_manager/__init__.py:145 | the day of a cycle lands on a day that exists in its month, February having 29 days exactly in leap years |
| Calendar.CivilFromDaysValid | src/zfs_backup_manager/__init__.py:110-111 | every ordinal date is a real calendar day: year 1..9999, month 1..12, and a day no greater than the month's length under the Gregorian leap rule |
| Calendar.DaysFromCivilParts | src/zfs_backup_manager/__init__.py:42-43 | the ordinal of a day assembled from cycle, year of cycle, month and day offset is the cycle's start plus the days of the whole years before it plus the day offset |
| Calendar.DaysFromCivilRange | src/zfs_backup_manager/__init__.py:42-43 | every valid calendar day 0001-01-01..9999-12-31 has an ordinal in 1..3652059 |
| Calendar.CycleRoundTrip | src/zfs_backup_manager/__init__.py:117 | turning the day of a cycle into year, month and day and back gives the same ordinal |
| Calendar.CivilRoundTrip | src/zfs_backup_manager/__init__.py:117 | converting a date to year, month and day and back yields the same date |
| Calendar.CivilInjective | src/zfs_backup_manager/__init__.py:117 | two dates with the same year, month and day are the same date |
| Calendar.IsoWeekday | src/zfs_backup_manager/__init__.py:110 | the ISO weekday is 1..7 |
| Calendar.DayOfMonth | src/zfs_backup_manager/__init__.py:111 | the day of the month is 1..31; `Calendar.CivilFromDaysValid` bounds it by the month's length |
| Calendar.WeekdaySuccessor | src/zfs_backup_manager/__init__.py:140 | the day after a date has the next ISO weekday, Sunday (7) wrapping to Monday (1) |
| Naming.DigitChar | src/zfs_backup_manager/__init__.py:117 | a digit 0..9 becomes a character '0'..'9' that reads back as the same digit |
| Naming.Digits | src/zfs_backup_manager/__init__.py:117 | a zero-padded decimal has exactly the requested width and only digit characters |
| Naming.DigitsRoundTrip | src/zfs_backup_manager/__init__.py:42 | reading a zero-padded decimal back gives the number written |
| Naming.Stamp | src/zfs_backup_manager/__init__.py:117 | the `%Y%m%d` stamp of a date is eight digit characters |
| Naming.StampRoundTrip | src/zfs_backup_manager/__init__.py:42-43 | the stamp written for a date is accepted and decodes to that date's year, month and day, hence to the date itself |
| Naming.DecimalValueBound | src/zfs_backup_manager/__init__.py:42 | a string of `k` decimal digits denotes a number in 0..10^k - 1 |
| Naming.DecodeStamp | src/zfs_backup_manager/__init__.py:42-45 | a stamp is accepted exactly when it is eight digits spelling a real calendar day (year 1..9999, month 1..12, a day its month has); anything else is refused, as `strptime`'s `ValueError` drops the entry at lines 44-45 |
| Naming.StampFields | src/zfs_backup_manager/__init__.py:42 | eight digits read as a year 0..9999, a month 0..99 and a day 0..99 |
| Naming.DigitsOfValue | src/zfs_backup_manager/__init__.py:42 | a digit string is the zero-padded rendering of the number it denotes |
| Naming.DecodeStampRendering | src/zfs_backup_manager/__init__.py:42 | a stamp that is accepted is exactly the zero-padded year, month and day it decodes to |
| Naming.StampParts | src/zfs_backup_manager/__init__.py:42 | any eight digits are the zero-padded renderings of the year, month and day fields they spell |
| Naming.SnapshotName | src/zfs_backup_manager/__init__.py:116-118 | the name is the dataset, then `@`, then exactly the prefix, then the eight-character stamp of the date, of the stated total length |
| Naming.SnapshotNameInjective | src/zfs_backup_manager/__init__.py:152-154 | different dates of one dataset give different snapshot names, so each destroy names exactly one snapshot |
| Catalog.Insert | src/zfs_backup_manager/__init__.py:49 | inserting into a newest-first sequence keeps it newest first and adds exactly the one date |
| Catalog.SortDescending | src/zfs_backup_manager/__init__.py:47-49 | the result is newest first and a permutation of the input, duplicates kept |
| Catalog.DatesOf | src/zfs_backup_manager/__init__.py:38-43 | a date is collected for a dataset exactly when the listing holds that dataset's snapshot of that date, and there are no more dates than entries |
| Catalog.DatesOfCounts | src/zfs_backup_manager/__init__.py:38-43 | each date is collected for a dataset as many times as the listing names that snapshot |
| Catalog.SnapshotsOf | src/zfs_backup_manager/__init__.py:24-51 | a dataset's catalog is newest first and holds exactly the dates the listing records for it; it is empty for a dataset with none |
| Catalog.SnapshotsOfCounts | src/zfs_backup_manager/__init__.py:24-51 | the sorted catalog holds each date as many times as the listing names the dataset's snapshot of that date |
| Catalog.DistinctCountsAtMostOne | src/zfs_backup_manager/__init__.py:49 | a sequence without repeats holds each value at most once |
| Catalog.RepeatCountsTwice | src/zfs_backup_manager/__init__.py:49 | a value at two positions occurs at least twice |
| Catalog.PermutationKeepsDistinct | src/zfs_backup_manager/__init__.py:49 | sorting a sequence without repeats leaves it without repeats |
| Catalog.DatesOfDistinct | src/zfs_backup_manager/__init__.py:38-43 | a listing without repeated entries gives each date of a dataset once |
| Catalog.SnapshotsOfStrictlyDescending | src/zfs_backup_manager/__init__.py:47-49 | with unique snapshot names, a dataset's catalog is strictly newest first |
| Retention.Take | src/zfs_backup_manager/__init__.py:138 | the slice `s[:k]` is a prefix of `s` whose length follows Python's rules for `k` beyond the length and for negative `k` |
| Retention.Filter | src/zfs_backup_manager/__init__.py:140 | the comprehension keeps exactly the dates on the anchor, and no more dates than it was given |
| Retention.FilterNonIncreasing | src/zfs_backup_manager/__init__.py:140 | the comprehension over a newest-first catalog yields a newest-first sequence |
| Retention.FilterStrictlyDescending | src/zfs_backup_manager/__init__.py:145 | the comprehension over a strictly newest-first catalog yields a strictly newest-first sequence |
| Retention.FilterKeepsOrder | src/zfs_backup_manager/__init__.py:139-148 | filtering a newest-first sequence leaves it newest first, strictly when it was strictly |
| Retention.FilterAppend | src/zfs_backup_manager/__init__.py:145 | filtering a concatenation filters each part |
| Retention.KeepSet | src/zfs_backup_manager/__init__.py:149 | the keep set lies within the catalog, contains each tier, and holds nothing outside the three tiers |
| Retention.TakeWithin | src/zfs_backup_manager/__init__.py:138-148 | every date a slice keeps comes from the sequence sliced, whatever the count |
| Retention.DeletionSet | src/zfs_backup_manager/__init__.py:151 | the deletion set is disjoint from the keep set, the two together are the whole catalog, and a date is deleted exactly when it is in the catalog and not kept |
| Retention.ElementsCardinality | src/zfs_backup_manager/__init__.py:138 | a sequence has at least as many elements as its set |
| Retention.DistinctElementsCardinality | src/zfs_backup_manager/__init__.py:138 | a sequence without repeats has as many elements as its set |
| Retention.TakeElementsBound | src/zfs_backup_manager/__init__.py:138-148 | a tier with a non-negative count `k` holds at most `k` dates |
| Retention.KeepSetBound | src/zfs_backup_manager/__init__.py:138-149 | with non-negative counts at most `keep_days + keep_weeks + keep_months` snapshots are kept |
| Retention.TakeIsNewest | src/zfs_backup_manager/__init__.py:138 | in a newest-first catalog, every date of the first `k` is newer than every date they leave out |
| Retention.DailyTierIsNewest | src/zfs_backup_manager/__init__.py:138 | the daily tier is exactly the first `min(keep_days, len)` dates, each newer than every snapshot left out of it |
| Retention.AnchoredTierIsNewest | src/zfs_backup_manager/__init__.py:139-148 | an anchored tier holds only dates on its anchor, at most its count, each newer than every anchored date it leaves out, and all anchored dates when there are no more than the count; over a strictly newest-first catalog it holds exactly min(count, number of anchored dates) dates |
| Retention.WeeklyTierIsNewest | src/zfs_backup_manager/__init__.py:139-143 | the weekly tier holds only dates on weekday `dow`, at most `keep_weeks`, and the newest such; over a strictly newest-first catalog it holds exactly min(`keep_weeks`, number of such dates) |
| Retention.MonthlyTierIsNewest | src/zfs_backup_manager/__init__.py:144-148 | the monthly tier holds only dates on day `dom`, at most `keep_months`, and the newest such; over a strictly newest-first catalog it holds exactly min(`keep_months`, number of such dates) |
| Retention.NewerThanIsPrefix | src/zfs_backup_manager/__init__.py:138 | in a strictly newest-first catalog, the dates newer than the one at position `i` are exactly the first `i` |
| Retention.TakeByRank | src/zfs_backup_manager/__init__.py:138 | over a strictly newest-first catalog, a date is among the first `k` exactly when fewer than `k` dates are newer |
| Retention.AnchoredTierByRank | src/zfs_backup_manager/__init__.py:139-148 | over a strictly newest-first catalog, a date is in an anchored tier exactly when it is on the anchor and fewer than the count anchored dates are newer; other tiers' picks do not count against it |
| Retention.KeepSetByRank | src/zfs_backup_manager/__init__.py:138-149 | over a strictly newest-first catalog, the keep set equals the rank-based reference definition: kept exactly when some tier ranks the date, among the dates eligible for that tier, below its count |
| Retention.OffAnchorDeleted | src/zfs_backup_manager/__init__.py:138-151 | a snapshot outside the daily tier that is on neither weekday `dow` nor day `dom` is deleted however recent it is |
| Retention.ZeroCountsKeepNothing | src/zfs_backup_manager/__init__.py:138-151 | with every count zero, nothing is kept and every snapshot is deleted |
| Retention.TakeMonotone | src/zfs_backup_manager/__init__.py:138 | a larger non-negative count keeps a superset |
| Retention.KeepSetMonotone | src/zfs_backup_manager/__init__.py:138-151 | raising any count keeps every snapshot the lower count kept, and deletes no more |
| Retention.NegativeCountKeepsAllButOldest | src/zfs_backup_manager/__init__.py:138 | over a strictly newest-first catalog and a negative count `k`, a date is kept exactly when it is in the catalog and at least `-k` dates are older |
| Retention.OlderThanIsSuffix | src/zfs_backup_manager/__init__.py:138 | in a strictly newest-first catalog, the dates older than the one at position `i` are exactly those after it, `len - i - 1` of them |
| Scheduler.IsDue | src/zfs_backup_manager/__init__.py:108-112 | a due dataset has some positive count; an enabled weekly tier makes it due on its weekday and an enabled monthly tier on its day of month, whatever the daily count |
| Scheduler.Decide | src/zfs_backup_manager/__init__.py:107-151 | a snapshot is created exactly when the dataset is due and today's is not yet in the catalog; without a create nothing is destroyed; the dates destroyed are exactly the re-read catalog minus its keep set |
| Scheduler.ZeroCountsNeverDue | src/zfs_backup_manager/__init__.py:108-114 | with every count zero, a dataset is due on no date |
| Scheduler.DueDays | src/zfs_backup_manager/__init__.py:108-112 | with `keep_days > 0` a dataset is due every day; otherwise exactly when an enabled weekly or monthly tier's day is today |
| Scheduler.NewestIsFirst | src/zfs_backup_manager/__init__.py:49 | a newest-first catalog holding a date no other date exceeds starts with it |
| Scheduler.TakeKeepsFirst | src/zfs_backup_manager/__init__.py:138 | a positive count keeps the first date |
| Scheduler.AnchoredTierKeepsNewest | src/zfs_backup_manager/__init__.py:139-148 | an anchored tier with a positive count keeps the newest snapshot when it is on the anchor |
| Scheduler.DueKeepsToday | src/zfs_backup_manager/__init__.py:108-149 | whenever a dataset is due and none of its snapshots is dated after today, the snapshot just taken survives the same pass's pruning |
| Scheduler.DueIffCaptureKept | src/zfs_backup_manager/__init__.py:108-149 | with non-negative counts, a dataset is due exactly when the policy would keep a snapshot taken today on top of older ones |
| Scheduler.Destroy | src/zfs_backup_manager/__init__.py:151-170 | destroying removes exactly the dataset's snapshots on the listed dates and nothing else |
| Scheduler.Apply | src/zfs_backup_manager/__init__.py:124-170 | a decision to do nothing leaves the backend listing exactly as it was |
| Scheduler.ApplyContents | src/zfs_backup_manager/__init__.py:124-170 | after a decision is carried out, a snapshot exists exactly when it existed before or is today's snapshot just created, and it is not one of the dataset's snapshots on a destroyed date |
| Scheduler.StepFrame | src/zfs_backup_manager/__init__.py:116-170 | one dataset's pass leaves every other dataset's snapshots as they were, and the only snapshot it can add is today's snapshot of its own dataset; descendants reached by `-r` are not represented (see the `-r` line under "## Left out") |
| Scheduler.NotDueNoAction | src/zfs_backup_manager/__init__.py:108-114 | a dataset that is not due is neither snapshotted nor pruned |
| Scheduler.AlreadyExistsNoAction | src/zfs_backup_manager/__init__.py:120-122 | a dataset that already has today's snapshot is neither snapshotted nor pruned |
| Scheduler.StepCreatesAndPrunes | src/zfs_backup_manager/__init__.py:124-151 | when no snapshot is dated after today, a due dataset without today's snapshot gets it and then holds exactly the keep set of the re-read catalog, today's snapshot among them; other datasets are untouched (descendants reached by `-r` are not represented, see "## Left out") and still no snapshot is dated after today |
| Scheduler.CreatedIsNewest | src/zfs_backup_manager/__init__.py:137 | when no snapshot is dated after today, after the create today's snapshot is in the re-read catalog and no date there is later (membership alone holds for every listing: `Scheduler.CreatedIsListed`) |
| Scheduler.CreatedIsListed | src/zfs_backup_manager/__init__.py:132-137 | after the create, today's snapshot is in the dataset's re-read catalog, whatever else the listing holds |
| Scheduler.PruneLeavesKeepSet | src/zfs_backup_manager/__init__.py:149-170 | destroying the deletion set leaves the dataset exactly its keep set |
| Scheduler.StepPreserves | src/zfs_backup_manager/__init__.py:107-170 | one dataset's pass keeps a listing with no snapshot after today that way, and keeps every snapshot dated today |
| Scheduler.StepKeepsToday | src/zfs_backup_manager/__init__.py:107-170 | one dataset's pass never removes a snapshot dated today, whatever else the listing holds |
| Scheduler.StepEstablishesToday | src/zfs_backup_manager/__init__.py:107-151 | after the pass over a due dataset, today's snapshot of it exists, when no snapshot is dated after today (a snapshot dated later can push today's out of the daily tier, and line 168 then destroys the snapshot line 132 just took) |
| Scheduler.RunPreserves | src/zfs_backup_manager/__init__.py:107-172 | a whole run keeps a listing with no snapshot after today that way, and keeps every snapshot dated today |
| Scheduler.RunKeepsToday | src/zfs_backup_manager/__init__.py:107-172 | a whole run never removes a snapshot dated today, whatever else the listing holds |
| Scheduler.RunFrame | src/zfs_backup_manager/__init__.py:107-172 | a whole run leaves the snapshots of unconfigured datasets as they were, and every snapshot it adds is dated today and belongs to a configured dataset; descendants reached by `-r` are not represented (see the `-r` line under "## Left out") |
| Scheduler.RunEstablishesToday | src/zfs_backup_manager/__init__.py:107-172 | after a run every due dataset has today's snapshot, later datasets' passes not undoing it, when no snapshot is dated after today |
| Scheduler.RunEstablishesTodayHead | src/zfs_backup_manager/__init__.py:107-172 | the first dataset of a run, when due, still has today's snapshot once the whole run is over, when no snapshot is dated after today |
| Scheduler.RunWithTodayPresentNoAction | src/zfs_backup_manager/__init__.py:107-122 | a run in which every due dataset already has today's snapshot changes nothing |
| Scheduler.RunIdempotent | src/zfs_backup_manager/__init__.py:107-172 | running twice on the same day ends where running once does, while no snapshot is dated after today |
| Scheduler.RunConfig | src/zfs_backup_manager/__init__.py:95-172 | a configuration error stops everything before any dataset is processed and names a table without a name; otherwise datasets no table names are untouched, and when no snapshot is dated after today the run keeps it so and every configured dataset due under its resolved policy ends with today's snapshot |
| Scheduler.ResolvedPolicies | src/zfs_backup_manager/__init__.py:54-79 | a successful resolution gives one policy per dataset table, in table order, each named after its table and resolved from it |
| Scheduler.ResolvedRun | src/zfs_backup_manager/__init__.py:95-172 | running the resolved policies leaves datasets no table names untouched; when no snapshot is dated after today, it keeps it so and gives every due configured dataset today's snapshot |
| Scenarios.FirstDate | src/zfs_backup_manager/__init__.py:110 | ordinal 1 is Monday 0001-01-01 |
| Scenarios.LastDate | src/zfs_backup_manager/__init__.py:111 | ordinal 3652059 is 9999-12-31 |
| Scenarios.KnownDate | src/zfs_backup_manager/__init__.py:110-111 | ordinal 738895 is Wednesday 2024-01-10 |
| Scenarios.LeapDay | src/zfs_backup_manager/__init__.py:111 | 2024-02-29 exists and is followed by 2024-03-01 |
| Scenarios.KnownStamp | src/zfs_backup_manager/__init__.py:117 | 2024-01-10 (ordinal 738895) is stamped `20240110` |
| Scenarios.KnownName | src/zfs_backup_manager/__init__.py:116-118 | with `snapshot_prefix = "auto-"`, today's snapshot of `tank` on 2024-01-10 is `tank@auto-20240110` |
| Scenarios.KnownUnprefixedName | src/zfs_backup_manager/__init__.py:116-118 | without a `snapshot_prefix`, today's snapshot of `tank` on 2024-01-10 is `tank@20240110` |
| Scenarios.ImpossibleDayRefused | src/zfs_backup_manager/__init__.py:42-45 | `20240231` is refused, February 2024 having 29 days |
| Scenarios.ImpossibleMonthRefused | src/zfs_backup_manager/__init__.py:42-45 | `20241399` is refused, there being no month 13 |
| Scenarios.YearZeroRefused | src/zfs_backup_manager/__init__.py:42-45 | `00000101` is refused, `%Y` having no year 0 |
| Scenarios.NonDigitRefused | src/zfs_backup_manager/__init__.py:42-45 | `2024011a` is refused, a stamp being all digits |
| Scenarios.DailyScenario | src/zfs_backup_manager/__init__.py:138-151 | three days kept out of 01-10 back to 01-07: 01-10, 01-09 and 01-08 stay, 01-07 goes |
| Scenarios.DailyScenarioKeep | src/zfs_backup_manager/__init__.py:138-149 | with three days kept, the keep set of 01-10 back to 01-07 is 01-10, 01-09 and 01-08 |
| Scenarios.WeeklyScenarioTiers | src/zfs_backup_manager/__init__.py:139-143 | with two weeks kept on Sundays, the weekly tier is the two latest Sundays and the other tiers are empty |
| Scenarios.WeeklyScenario | src/zfs_backup_manager/__init__.py:139-151 | out of four Sundays and three other days, the two latest Sundays stay and the rest go, however recent |
| Scenarios.MonthlyScenario | src/zfs_backup_manager/__init__.py:144-151 | a monthly tier whose day no snapshot falls on keeps nothing and raises no error |
| Scenarios.AlreadyExistsScenario | src/zfs_backup_manager/__init__.py:120-122 | with today's snapshot present and one day kept, the pass leaves three older snapshots in place |

## Left out

- Backend calls: `zfs list`, `zfs snapshot`, `zfs destroy` (lines 32, 132, 168) are not modelled as processes. The listing is a sequence of entries; a create appends an entry and a destroy removes entries. The `which("zfs")` check and exit codes 2 and 3 (lines 90-99) are left out as process plumbing, apart from the configuration error itself (`Scheduler.RunConfig`).
- Failed backend operations (lines 133-134, 169-170) are not modelled. `Scheduler.Step` assumes every create and destroy succeeds. `Scheduler.Decide` takes the re-read catalog as a parameter, so it covers a failed create too.
- The text handling of `zfs list` output is left out, because it depends on an external tool's output format. This covers the header skip, the whitespace split, the split on `@` and the "no datasets available" answer (lines 33-40). Entries that do not parse against prefix plus `%Y%m%d` (lines 41-45) are simply absent from the modelled listing.
- Naming.DecodeStamp: accepts only the eight-digit zero-padded form the manager writes. `strptime`'s leniency on other strings (single-digit months, for example) is not modelled; such a stamp is refused here.
- `Naming.Stamp`: always pads the year to four digits. The platform-dependent `%Y` rendering of years below 1000 is not modelled.
- `datetime.now()` (line 105) is not modelled; today's date is a parameter.
- `cli` is not modelled: argument parsing, TOML loading and the logging level (lines 175-201). `Config` is already the parsed file, with the type of each value taken as given.
- The `dry_run` flag (lines 130, 166) only suppresses the backend calls, so it is not modelled. A dry run's decisions are `Scheduler.Decide`.
- Scheduler.Step: adds `Entry(name, today)` to the re-read catalog, taking for granted that the name created at lines 116-118 parses back at line 42. That fails for a prefix containing `%` (the format `a%%Y%m%d` built from prefix `a%` expects a literal `a%Y`), so in the program the snapshot is never seen again: line 120 never fires and no pass prunes it. It also ignores that `strptime` matches the prefix without regard to case, so `tank@AUTO-20240110` and `tank@auto-20240110` both parse as the same date; with such names the catalog is not strictly newest first, although the backend names are unique.
- The `-r` flag (lines 125-126, 161-162) is not modelled. `Policy.recursive` is resolved but has no effect in the model. The recursive create and destroy of child datasets' snapshots is not represented in the listing.
- Log messages are not modelled.
- `setup.py` and `types.py` are not part of this model.
- Retention.KeepSetBound: requires non-negative counts: with a negative count the slice keeps more dates than the count.
- Scheduler.DueIffCaptureKept: requires non-negative counts: a negative count keeps snapshots without making the dataset due.
- Retention.DailyTierIsNewest: requires a non-negative `keep_days`; negative counts are covered by `Retention.NegativeCountKeepsAllButOldest`.
- Retention.AnchoredTierIsNewest: requires a non-negative count; negative counts are covered by `Retention.NegativeCountKeepsAllButOldest`.
- Retention.WeeklyTierIsNewest: requires a non-negative `keep_weeks`, for the same reason.
- Retention.MonthlyTierIsNewest: requires a non-negative `keep_months`, for the same reason.
- Retention.TakeByRank: requires a non-negative count; the negative case is `Retention.NegativeCountKeepsAllButOldest`.
- Retention.AnchoredTierByRank: requires a non-negative count, for the same reason.
- Retention.KeepSetByRank: requires non-negative counts: the rank-based reference definition is stated for them only.
- Retention.KeepSetMonotone: requires non-negative counts: raising a negative count towards zero keeps fewer dates, not more.
- Retention.TakeElementsBound: requires a non-negative count, since a negative one has no such bound.
- Retention.TakeMonotone: requires non-negative counts, for the same reason as `Retention.KeepSetMonotone`.
- Scheduler.RunIdempotent: requires that no snapshot is dated after today; without that, a second run may create today's snapshot again.

=== FILE: calendar.dfy ===
/**
  Calendar dates as the source's `datetime.date` sees them: a proleptic
  Gregorian day number (the ordinal of `date.toordinal()`, where 1 is
  0001-01-01), with the two projections the retention policy uses, the ISO
  weekday and the day of the month.
 */
module Calendar {

  /** Ordinal of 0001-01-01, the earliest representable date. */
  const MinOrdinal := 1
  /** Ordinal of 9999-12-31, the latest representable date. */
  const MaxOrdinal := 3652059

  /** A calendar day, identified by its proleptic Gregorian ordinal. */
  type Date = d: int | MinOrdinal <= d <= MaxOrdinal witness MinOrdinal

  /** A year-month-day triple. */
  datatype Civil = Civil(year: int, month: int, day: int)

  /** Gregorian leap years: every fourth year, except centuries not divisible by 400. */
  predicate IsLeapYear(y: int)
  {
    y % 4 == 0 && (y % 100 != 0 || y % 400 == 0)
  }

  /** The number of days of a month of a year. */
  function DaysInMonth(year: int, month: int): int
  {
    if month == 2 then (if IsLeapYear(year) then 29 else 28)
    else if month == 4 || month == 6 || month == 9 || month == 11 then 30
    else 31
  }

  /** A year-month-day triple that names an existing day between 0001-01-01 and 9999-12-31. */
  predicate ValidCivil(c: Civil)
  {
    1 <= c.year <= 9999 && 1 <= c.month <= 12 && 1 <= c.day <= DaysInMonth(c.year, c.month)
  }

  /** Adding a multiple of 4 does not change the remainder modulo 4. */
  lemma Mod4Shift(y: int, k: int)
    ensures (y + 4 * k) % 4 == y % 4
  {
    assert y + 4 * k == 4 * (y / 4 + k) + y % 4;
  }

  /** Adding a multiple of 100 does not change the remainder modulo 100. */
  lemma Mod100Shift(y: int, k: int)
    ensures (y + 100 * k) % 100 == y % 100
  {
    assert y + 100 * k == 100 * (y / 100 + k) + y % 100;
  }

  /** Adding a multiple of 400 does not change the remainder modulo 400. */
  lemma Mod400Shift(y: int, k: int)
    ensures (y + 400 * k) % 400 == y % 400
  {
    assert y + 400 * k == 400 * (y / 400 + k) + y % 400;
  }

  /** Leap years repeat every 400 years. */
  lemma LeapShift(y: int, era: int)
    ensures IsLeapYear(y + 400 * era) == IsLeapYear(y)
  {
    Mod4Shift(y, 100 * era);
    Mod100Shift(y, 4 * era);
    Mod400Shift(y, era);
  }

  /**
    The year of the era for a day `doe` inside a 400-year cycle of March-based
    years: the day of that year found is within its length, 366 days when the
    February it ends with has a 29th.
   */
  function YearOfEra(doe: int): (yoe: int)
    requires 0 <= doe < 146097
    ensures 0 <= yoe <= 399
    ensures 0 <= doe - (365 * yoe + yoe / 4 - yoe / 100) < (if IsLeapYear(yoe + 1) then 366 else 365)
  {
    // A cycle is three centuries of 36524 days and one of 36525; a century is
    // 4-year blocks of 1461 days (its last block one day shorter unless it
    // ends the cycle); a block is three years of 365 days and one of 366.
    var c := if doe / 36524 == 4 then 3 else doe / 36524;
    var inCentury := doe - 36524 * c;
    var q := inCentury / 1461;
    var inBlock := inCentury - 1461 * q;
    var t := if inBlock / 365 == 4 then 3 else inBlock / 365;
    assert 0 <= c <= 3 && 0 <= q <= 24 && 0 <= t <= 3;
    assert 0 <= inBlock - 365 * t <= 365;
    assert inBlock - 365 * t == 365 ==> t == 3 && (q < 24 || c == 3);
    YearOfBlock(c, q, t);
    100 * c + 4 * q + t
  }

  /**
    Year `t` of 4-year block `q` of century `c` of a cycle: its index in the
    cycle, and whether the February that ends it (in the next calendar year)
    has a 29th.
   */
  lemma YearOfBlock(c: int, q: int, t: int)
    requires 0 <= c <= 3 && 0 <= q <= 24 && 0 <= t <= 3
    ensures var yoe := 100 * c + 4 * q + t;
            && yoe / 4 == 25 * c + q
            && yoe / 100 == c
            && (IsLeapYear(yoe + 1) <== t == 3 && (q < 24 || c == 3))
  {
    var yoe := 100 * c + 4 * q + t;
    if t == 3 {
      Mod4Shift(0, 25 * c + q + 1);
      assert yoe + 1 == 4 * (25 * c + q + 1);
      if q < 24 {
        assert yoe + 1 == 100 * c + (4 * q + 4);
        Mod100Shift(4 * q + 4, c);
      } else if c == 3 {
        assert yoe + 1 == 400;
      }
    }
  }

  /** The length of a month counted from March (0 = March, 11 = February, taken with its 29th). */
  function MonthLengthFromMarch(mp: int): int
  {
    if mp == 11 then 29
    else if mp == 1 || mp == 3 || mp == 6 || mp == 8 then 30
    else 31
  }

  /** The month counted from March (0 = March, 11 = February) of a day of the March-based year. */
  function MonthFromMarch(doy: int): (mp: int)
    requires 0 <= doy <= 365
    ensures 0 <= mp <= 11
    ensures 0 <= doy - (153 * mp + 2) / 5 < MonthLengthFromMarch(mp)
  {
    (5 * doy + 2) / 153
  }

  /**
    The year-month-day triple of day `doy` of March-based year `yoe` of
    400-year cycle `era`, that day falling in month `mp` counted from March.
   */
  function AssembleCivil(era: int, yoe: int, mp: int, doy: int): Civil
  {
    var month := if mp < 10 then mp + 3 else mp - 9;
    Civil(yoe + era * 400 + (if month <= 2 then 1 else 0), month, doy - (153 * mp + 2) / 5 + 1)
  }

  /**
    The year, month and day of day `doe` of 400-year cycle `era` (day 0 of a
    cycle is a 1st of March): a month 1..12 and a day 1..31 of one of that
    cycle's years.
   */
  function CivilOfCycle(era: int, doe: int): (c: Civil)
    requires 0 <= doe < 146097
    ensures 1 <= c.month <= 12 && 1 <= c.day <= 31
    ensures 400 * era <= c.year <= 400 * era + 400
    ensures 306 <= doe ==> 400 * era + 1 <= c.year
    ensures doe <= 146036 ==> c.year <= 400 * era + 399
  {
    var yoe := YearOfEra(doe);
    var doy := doe - (365 * yoe + yoe / 4 - yoe / 100);
    var mp := MonthFromMarch(doy);
    assert yoe == 0 && mp < 10 ==> doe < 306;
    assert yoe == 399 && mp >= 10 ==> doe > 146036;
    AssembleCivil(era, yoe, mp, doy)
  }

  /** A day found inside its March-based year and month is a day of the civil month it lands in. */
  lemma DayWithinMonth(era: int, yoe: int, mp: int, doy: int)
    requires 0 <= yoe <= 399
    requires 0 <= doy < (if IsLeapYear(yoe + 1) then 366 else 365)
    requires 0 <= mp <= 11
    requires 0 <= doy - (153 * mp + 2) / 5 < MonthLengthFromMarch(mp)
    ensures var c := AssembleCivil(era, yoe, mp, doy);
            c.day <= DaysInMonth(c.year, c.month)
  {
    LeapShift(yoe + 1, era);
    assert yoe + era * 400 + 1 == yoe + 1 + 400 * era;
    assert mp == 11 ==> (153 * mp + 2) / 5 == 337;
  }

  /** The day found in a cycle exists in its month: the 29th of February only in leap years, no 31st in a 30-day month. */
  lemma CivilOfCycleValid(era: int, doe: int)
    requires 0 <= doe < 146097
    ensures CivilOfCycle(era, doe).day <= DaysInMonth(CivilOfCycle(era, doe).year, CivilOfCycle(era, doe).month)
  {
    var yoe := YearOfEra(doe);
    var doy := doe - (365 * yoe + yoe / 4 - yoe / 100);
    DayWithinMonth(era, yoe, MonthFromMarch(doy), doy);
  }

  /** The calendar year, month and day of a date: a year 1..9999, a month 1..12 and a day 1..31. */
  function CivilFromDays(d: Date): (c: Civil)
    ensures 1 <= c.year <= 9999 && 1 <= c.month <= 12 && 1 <= c.day <= 31
  {
    // Days since 0000-03-01, split into 400-year cycles of 146097 days.
    var z := d + 305;
    var era, doe := z / 146097, z % 146097;
    assert 0 <= era <= 24;
    assert era == 0 ==> doe >= 306;
    assert era == 24 ==> doe <= 146036;
    CivilOfCycle(era, doe)
  }

  /** Every date is an existing day: its day lies within the length of its month. */
  lemma CivilFromDaysValid(d: Date)
    ensures ValidCivil(CivilFromDays(d))
  {
    var z := d + 305;
    CivilOfCycleValid(z / 146097, z % 146097);
  }

  /** The ordinal of a year-month-day triple; the inverse of `CivilFromDays`. */
  function DaysFromCivil(c: Civil): int
  {
    var y := c.year - (if c.month <= 2 then 1 else 0);
    var era := y / 400;
    var yoe := y - era * 400;
    var mp := (c.month + 9) % 12;
    var doy := (153 * mp + 2) / 5 + c.day - 1;
    var doe := yoe * 365 + yoe / 4 - yoe / 100 + doy;
    era * 146097 + doe - 305
  }

  /** `DaysFromCivil` undoes the assembly of a civil date from its cycle, year of cycle, month and day. */
  lemma DaysFromCivilParts(era: int, yoe: int, mp: int, doy: int)
    requires 0 <= yoe <= 399
    requires 0 <= mp <= 11
    requires 0 <= doy - (153 * mp + 2) / 5
    ensures DaysFromCivil(AssembleCivil(era, yoe, mp, doy)) == era * 146097 + 365 * yoe + yoe / 4 - yoe / 100 + doy - 305
  {
    var month := if mp < 10 then mp + 3 else mp - 9;
    var y := yoe + era * 400;
    assert (month + 9) % 12 == mp;
    assert y / 400 == era;
  }

  /** Every existing day between 0001-01-01 and 9999-12-31 has an ordinal in the date range. */
  lemma DaysFromCivilRange(c: Civil)
    requires ValidCivil(c)
    ensures MinOrdinal <= DaysFromCivil(c) <= MaxOrdinal
  {
    var y := c.year - (if c.month <= 2 then 1 else 0);
    var era := y / 400;
    var yoe := y - era * 400;
    var mp := (c.month + 9) % 12;
    var doy := (153 * mp + 2) / 5 + c.day - 1;
    var doe := yoe * 365 + yoe / 4 - yoe / 100 + doy;
    assert 0 <= era <= 24 && 0 <= yoe <= 399;
    assert 0 <= doy <= 365;
    assert y == 0 ==> mp >= 10 && doy >= 306;
    assert y == 9999 ==> era == 24 && yoe == 399 && mp <= 9 && doy <= 305;
    assert DaysFromCivil(c) == era * 146097 + doe - 305;
  }

  /** `DaysFromCivil` recovers the cycle and the day of the cycle `CivilOfCycle` started from. */
  lemma CycleRoundTrip(era: int, doe: int)
    requires 0 <= doe < 146097
    ensures DaysFromCivil(CivilOfCycle(era, doe)) == era * 146097 + doe - 305
  {
    var yoe := YearOfEra(doe);
    var doy := doe - (365 * yoe + yoe / 4 - yoe / 100);
    var mp := MonthFromMarch(doy);
    DaysFromCivilParts(era, yoe, mp, doy);
  }

  /** Converting a date to year-month-day and back yields the same date. */
  lemma CivilRoundTrip(d: Date)
    ensures DaysFromCivil(CivilFromDays(d)) == d
  {
    var z := d + 305;
    var era, doe := z / 146097, z % 146097;
    CycleRoundTrip(era, doe);
  }

  /** Two dates with the same year, month and day are the same date. */
  lemma CivilInjective(d1: Date, d2: Date)
    requires CivilFromDays(d1) == CivilFromDays(d2)
    ensures d1 == d2
  {
    CivilRoundTrip(d1);
    CivilRoundTrip(d2);
  }

  /** The ISO weekday of a date: 1 is Monday, 7 is Sunday (`date.isoweekday()`). */
  function IsoWeekday(d: Date): (w: int)
    ensures 1 <= w <= 7
  {
    (d + 6) % 7 + 1
  }

  /** The day of the month of a date (`date.day`). */
  function DayOfMonth(d: Date): (m: int)
    ensures 1 <= m <= 31
  {
    CivilFromDays(d).day
  }

  /** Consecutive dates have consecutive weekdays, Sunday wrapping to Monday. */
  lemma WeekdaySuccessor(d: Date)
    requires d < MaxOrdinal
    ensures IsoWeekday(d + 1) == if IsoWeekday(d) == 7 then 1 else IsoWeekday(d) + 1
  {
  }
}

=== FILE: catalog.dfy ===
/**
  The per-dataset view of the managed snapshots (`get_sorted_snapshots`):
  the parsed listing grouped by dataset, each group sorted newest first.
 */
module Catalog {
  import opened Calendar

  /** One managed snapshot of the backend listing, its name already parsed into dataset and date. */
  datatype Entry = Entry(dataset: string, date: Date)

  /** Every date is at least as recent as every date after it. */
  predicate NonIncreasing(s: seq<Date>)
  {
    forall i, j :: 0 <= i < j < |s| ==> s[i] >= s[j]
  }

  /** Every date is strictly more recent than every date after it. */
  predicate StrictlyDescending(s: seq<Date>)
  {
    forall i, j :: 0 <= i < j < |s| ==> s[i] > s[j]
  }

  /** No element occurs twice. */
  predicate Distinct<T(==)>(s: seq<T>)
  {
    forall i, j :: 0 <= i < j < |s| ==> s[i] != s[j]
  }

  /** Places `x` into a newest-first sequence, before the first date not newer than it. */
  function Insert(x: Date, s: seq<Date>): (r: seq<Date>)
    requires NonIncreasing(s)
    ensures NonIncreasing(r)
    ensures multiset(r) == multiset(s) + multiset{x}
    ensures |r| == |s| + 1
  {
    if s == [] || x >= s[0] then [x] + s
    else
      var tail := Insert(x, s[1..]);
      InsertBelowHead(x, s, tail);
      assert s == [s[0]] + s[1..];
      [s[0]] + tail
  }

  /** The first date stays ahead of whatever the rest becomes once a later date is inserted into it. */
  lemma InsertBelowHead(x: Date, s: seq<Date>, tail: seq<Date>)
    requires NonIncreasing(s) && s != [] && x < s[0]
    requires NonIncreasing(tail) && multiset(tail) == multiset(s[1..]) + multiset{x}
    ensures NonIncreasing([s[0]] + tail)
  {
    forall k | 0 <= k < |tail|
      ensures s[0] >= tail[k]
    {
      assert tail[k] in multiset(tail);
      if tail[k] != x {
        assert tail[k] in multiset(s[1..]);
        assert tail[k] in s[1..];
      }
    }
  }

  /** The dates newest first (`list.sort(reverse=True)`); duplicates are kept. */
  function SortDescending(s: seq<Date>): (r: seq<Date>)
    ensures NonIncreasing(r)
    ensures multiset(r) == multiset(s)
  {
    if s == [] then []
    else
      assert s == [s[0]] + s[1..];
      Insert(s[0], SortDescending(s[1..]))
  }

  /**
    The dates the listing records for `dataset`, in listing order: one date
    per listed snapshot of the dataset, repeats kept.
   */
  function DatesOf(listing: seq<Entry>, dataset: string): (r: seq<Date>)
    ensures forall d :: d in r <==> Entry(dataset, d) in listing
    ensures |r| <= |listing|
  {
    if listing == [] then []
    else
      var rest := DatesOf(listing[1..], dataset);
      assert forall e :: e in listing <==> e == listing[0] || e in listing[1..];
      if listing[0].dataset == dataset then [listing[0].date] + rest else rest
  }

  /** Each date of a dataset occurs as often as the listing names that snapshot. */
  lemma {:induction false} DatesOfCounts(listing: seq<Entry>, dataset: string)
    ensures forall d :: multiset(DatesOf(listing, dataset))[d] == multiset(listing)[Entry(dataset, d)]
  {
    if listing != [] {
      DatesOfCounts(listing[1..], dataset);
      assert listing == [listing[0]] + listing[1..];
      var rest := DatesOf(listing[1..], dataset);
      if listing[0].dataset == dataset {
        assert DatesOf(listing, dataset) == [listing[0].date] + rest;
      } else {
        assert DatesOf(listing, dataset) == rest;
      }
    }
  }

  /**
    The snapshot dates of `dataset`, newest first (the source's
    `get_sorted_snapshots(config)[name]`; a dataset with no managed
    snapshot has the empty sequence).
   */
  function SnapshotsOf(listing: seq<Entry>, dataset: string): (r: seq<Date>)
    ensures NonIncreasing(r)
    ensures forall d :: d in r <==> Entry(dataset, d) in listing
  {
    var dates := DatesOf(listing, dataset);
    var sorted := SortDescending(dates);
    assert forall d :: d in sorted <==> d in multiset(sorted);
    sorted
  }

  /**
    The sorted dates of a dataset are a rearrangement of its listed
    snapshots: each date occurs as often as the listing names it.
   */
  lemma SnapshotsOfCounts(listing: seq<Entry>, dataset: string)
    ensures forall d :: multiset(SnapshotsOf(listing, dataset))[d] == multiset(listing)[Entry(dataset, d)]
  {
    DatesOfCounts(listing, dataset);
  }

  /** A sequence without repeats holds each value at most once. */
  lemma {:induction false} DistinctCountsAtMostOne<T>(s: seq<T>, x: T)
    requires Distinct(s)
    ensures multiset(s)[x] <= 1
  {
    if s != [] {
      assert s == [s[0]] + s[1..];
      assert Distinct(s[1..]);
      DistinctCountsAtMostOne(s[1..], x);
      if s[0] == x {
        assert x !in s[1..];
      }
    }
  }

  /** A value found at two positions occurs at least twice. */
  lemma RepeatCountsTwice<T>(s: seq<T>, i: int, j: int)
    requires 0 <= i < j < |s|
    requires s[i] == s[j]
    ensures multiset(s)[s[i]] >= 2
  {
    assert s == s[..j] + s[j..];
    assert s[i] in s[..j];
    assert s[j] in s[j..];
  }

  /** Rearranging a sequence without repeats leaves it without repeats. */
  lemma PermutationKeepsDistinct(s: seq<Date>, t: seq<Date>)
    requires multiset(s) == multiset(t)
    requires Distinct(s)
    ensures Distinct(t)
  {
    forall i, j | 0 <= i < j < |t|
      ensures t[i] != t[j]
    {
      if t[i] == t[j] {
        RepeatCountsTwice(t, i, j);
        DistinctCountsAtMostOne(s, t[i]);
      }
    }
  }

  /** Without repeats, newest-first order is strict. */
  lemma DistinctNonIncreasingIsStrict(s: seq<Date>)
    requires NonIncreasing(s) && Distinct(s)
    ensures StrictlyDescending(s)
  {
  }

  /** A listing without repeated entries yields each date of a dataset once. */
  lemma {:induction false} DatesOfDistinct(listing: seq<Entry>, dataset: string)
    requires Distinct(listing)
    ensures Distinct(DatesOf(listing, dataset))
  {
    if listing != [] {
      assert Distinct(listing[1..]);
      DatesOfDistinct(listing[1..], dataset);
      if listing[0].dataset == dataset {
        assert Entry(dataset, listing[0].date) !in listing[1..];
      }
    }
  }

  /**
    When the listing names each snapshot once (snapshot names are unique in
    the backend), a dataset's dates come out strictly newest first.
   */
  lemma SnapshotsOfStrictlyDescending(listing: seq<Entry>, dataset: string)
    requires Distinct(listing)
    ensures StrictlyDescending(SnapshotsOf(listing, dataset))
  {
    DatesOfDistinct(listing, dataset);
    PermutationKeepsDistinct(DatesOf(listing, dataset), SnapshotsOf(listing, dataset));
    DistinctNonIncreasingIsStrict(SnapshotsOf(listing, dataset));
  }
}

=== FILE: config.dfy ===
/**
  Configuration resolution (`get_dataset_configs`): every dataset entry is
  completed field by field from the entry itself, then the global table,
  then a built-in default, yielding one retention policy per dataset.
 */
module Configuration {
  import opened Wrappers

  /** Built-in defaults (source lines 16-21). */
  const DefaultDom := 1
  const DefaultDow := 7
  const DefaultRecursive := true
  const DefaultKeepDays := 0
  const DefaultKeepWeeks := 0
  const DefaultKeepMonths := 0

  /** One `[[datasets]]` table of the configuration; every key may be absent. */
  datatype DatasetEntry = DatasetEntry(
    name: Option<string>,
    recursive: Option<bool>,
    dom: Option<int>,
    dow: Option<int>,
    keepDays: Option<int>,
    keepWeeks: Option<int>,
    keepMonths: Option<int>)

  /** The configuration file: global fallbacks, the dataset tables and the snapshot prefix. */
  datatype Config = Config(
    recursive: Option<bool>,
    dom: Option<int>,
    dow: Option<int>,
    keepDays: Option<int>,
    keepWeeks: Option<int>,
    keepMonths: Option<int>,
    datasets: Option<seq<DatasetEntry>>,
    snapshotPrefix: Option<string>)

  /**
    The fully resolved retention policy of one dataset. The counts are not
    validated by the source, so they are plain integers here.
   */
  datatype Policy = Policy(
    name: string,
    recursive: bool,
    dom: int,
    dow: int,
    keepDays: int,
    keepWeeks: int,
    keepMonths: int)

  /** The only configuration error: the dataset table at `index` has no name. */
  datatype ConfigError = MissingName(index: nat)

  /** `v` is what a three-level lookup gives: the entry's own value, else the global one, else the default. */
  ghost predicate Inherits<T>(v: T, own: Option<T>, global: Option<T>, default: T)
  {
    && (own.Some? ==> v == own.value)
    && (own.None? && global.Some? ==> v == global.value)
    && (own.None? && global.None? ==> v == default)
  }

  /** `dataset.get(key, config.get(key, default))`. */
  function Lookup<T>(own: Option<T>, global: Option<T>, default: T): (v: T)
    ensures Inherits(v, own, global, default)
  {
    own.GetOr(global.GetOr(default))
  }

  /** `p` is the policy the configuration prescribes for the dataset table `e` named `name`. */
  ghost predicate ResolvedFrom(p: Policy, c: Config, e: DatasetEntry, name: string)
  {
    && p.name == name
    && Inherits(p.recursive, e.recursive, c.recursive, DefaultRecursive)
    && Inherits(p.dom, e.dom, c.dom, DefaultDom)
    && Inherits(p.dow, e.dow, c.dow, DefaultDow)
    && Inherits(p.keepDays, e.keepDays, c.keepDays, DefaultKeepDays)
    && Inherits(p.keepWeeks, e.keepWeeks, c.keepWeeks, DefaultKeepWeeks)
    && Inherits(p.keepMonths, e.keepMonths, c.keepMonths, DefaultKeepMonths)
  }

  /** The policy of one named dataset table (source lines 68-76). */
  function ResolveEntry(c: Config, e: DatasetEntry, name: string): (p: Policy)
    ensures ResolvedFrom(p, c, e, name)
  {
    Policy(
      name,
      Lookup(e.recursive, c.recursive, DefaultRecursive),
      Lookup(e.dom, c.dom, DefaultDom),
      Lookup(e.dow, c.dow, DefaultDow),
      Lookup(e.keepDays, c.keepDays, DefaultKeepDays),
      Lookup(e.keepWeeks, c.keepWeeks, DefaultKeepWeeks),
      Lookup(e.keepMonths, c.keepMonths, DefaultKeepMonths))
  }

  /** The dataset tables of a configuration; a configuration without any has none. */
  function Datasets(c: Config): seq<DatasetEntry>
  {
    c.datasets.GetOr([])
  }

  /** Resolves the tables from index `i` on, stopping at the first one without a name. */
  function ResolveFrom(c: Config, entries: seq<DatasetEntry>, i: nat): (r: Result<seq<Policy>, ConfigError>)
    requires i <= |entries|
    decreases |entries| - i
    ensures r.Ok? <==> forall j :: i <= j < |entries| ==> entries[j].name.Some?
    ensures r.Ok? ==> |r.value| == |entries| - i
    ensures r.Ok? ==> forall k :: 0 <= k < |r.value| ==>
              ResolvedFrom(r.value[k], c, entries[i + k], entries[i + k].name.value)
    ensures r.Err? ==> && i <= r.error.index < |entries|
                       && entries[r.error.index].name.None?
                       && forall j :: i <= j < r.error.index ==> entries[j].name.Some?
  {
    if i == |entries| then Ok([])
    else
      match entries[i].name
      case None => Err(MissingName(i))
      case Some(name) =>
        match ResolveFrom(c, entries, i + 1)
        case Err(e) => Err(e)
        case Ok(rest) => Ok([ResolveEntry(c, entries[i], name)] + rest)
  }

  /**
    `get_dataset_configs`: one policy per dataset table, in table order, or
    the index of the first table that has no name.
   */
  function ResolveDatasetConfigs(c: Config): (r: Result<seq<Policy>, ConfigError>)
    ensures r.Ok? <==> forall j :: 0 <= j < |Datasets(c)| ==> Datasets(c)[j].name.Some?
    ensures r.Ok? ==> && |r.value| == |Datasets(c)|
                      && forall k :: 0 <= k < |r.value| ==>
                           ResolvedFrom(r.value[k], c, Datasets(c)[k], Datasets(c)[k].name.value)
    ensures r.Err? ==> && r.error.index < |Datasets(c)|
                       && Datasets(c)[r.error.index].name.None?
                       && forall j :: 0 <= j < r.error.index ==> Datasets(c)[j].name.Some?
  {
    ResolveFrom(c, Datasets(c), 0)
  }

  /** The prefix put before the date in every snapshot name; empty unless configured. */
  function SnapshotPrefix(c: Config): string
  {
    c.snapshotPrefix.GetOr("")
  }
}

=== FILE: naming.dfy ===
/**
  Snapshot names: `<dataset>@<prefix><YYYYMMDD>`, the form in which the
  manager creates its snapshots and by which it destroys them.
 */
module Naming {
  import opened Wrappers
  import opened Calendar

  /** The character of a decimal digit 0..9. */
  function DigitChar(n: int): (ch: char)
    requires 0 <= n <= 9
    ensures '0' <= ch <= '9'
    ensures ch as int - '0' as int == n
  {
    (n + '0' as int) as char
  }

  /** The value of a decimal digit character. */
  function DigitValue(ch: char): int
  {
    ch as int - '0' as int
  }

  /** `n` written with exactly `width` decimal digits, zero-padded on the left. */
  function Digits(n: nat, width: nat): (s: string)
    requires n < Pow10(width)
    ensures |s| == width
    ensures forall i :: 0 <= i < |s| ==> '0' <= s[i] <= '9'
  {
    if width == 0 then "" else Digits(n / 10, width - 1) + [DigitChar(n % 10)]
  }

  /** Ten to the power `k`. */
  function Pow10(k: nat): (p: nat)
    ensures p >= 1
  {
    if k == 0 then 1 else 10 * Pow10(k - 1)
  }

  /** The number a string of decimal digits denotes. */
  function DecimalValue(s: string): int
  {
    if s == [] then 0 else 10 * DecimalValue(s[..|s| - 1]) + DigitValue(s[|s| - 1])
  }

  /** Reading back a zero-padded decimal yields the number written. */
  lemma {:induction false} DigitsRoundTrip(n: nat, width: nat)
    requires n < Pow10(width)
    ensures DecimalValue(Digits(n, width)) == n
  {
    if width > 0 {
      var s := Digits(n, width);
      assert s[..|s| - 1] == Digits(n / 10, width - 1);
      DigitsRoundTrip(n / 10, width - 1);
    }
  }

  /** The `%Y%m%d` rendering of a date: four digits of year, two of month, two of day. */
  function Stamp(d: Date): (s: string)
    ensures |s| == 8
    ensures IsDigits(s)
  {
    var c := CivilFromDays(d);
    Digits(c.year, 4) + Digits(c.month, 2) + Digits(c.day, 2)
  }

  /** The value of a string of `k` decimal digits is below ten to the `k`. */
  lemma {:induction false} DecimalValueBound(s: string)
    requires IsDigits(s)
    ensures 0 <= DecimalValue(s) < Pow10(|s|)
  {
    if s != [] {
      var init := s[..|s| - 1];
      assert forall i :: 0 <= i < |init| ==> init[i] == s[i];
      DecimalValueBound(init);
    }
  }

  /** Every character is a decimal digit. */
  predicate IsDigits(s: string)
  {
    forall i :: 0 <= i < |s| ==> '0' <= s[i] <= '9'
  }

  /** The year, month and day an eight-character `YYYYMMDD` stamp spells, before any range check. */
  function StampFields(s: string): (c: Civil)
    requires |s| == 8
    ensures IsDigits(s) ==> 0 <= c.year <= 9999 && 0 <= c.month <= 99 && 0 <= c.day <= 99
  {
    assert IsDigits(s) ==>
             0 <= DecimalValue(s[..4]) < 10000 && 0 <= DecimalValue(s[4..6]) < 100 && 0 <= DecimalValue(s[6..]) < 100 by {
      if IsDigits(s) {
        DecimalValueBound(s[..4]);
        DecimalValueBound(s[4..6]);
        DecimalValueBound(s[6..]);
      }
    }
    Civil(DecimalValue(s[..4]), DecimalValue(s[4..6]), DecimalValue(s[6..]))
  }

  /**
    Reads a `YYYYMMDD` stamp back into a calendar day (`strptime` with
    `%Y%m%d`). A stamp with a non-digit, a year 0000, a month outside
    1..12 or a day its month does not have is refused, as `strptime`
    refuses it with a `ValueError`.
   */
  function DecodeStamp(s: string): (r: Option<Civil>)
    ensures r.Some? ==> |s| == 8 && IsDigits(s) && ValidCivil(r.value)
    ensures |s| == 8 && IsDigits(s) && ValidCivil(StampFields(s)) ==> r.Some?
  {
    if |s| == 8 && IsDigits(s) && ValidCivil(StampFields(s)) then Some(StampFields(s)) else None
  }

  /** A stamp that decodes is the zero-padded rendering of the year, month and day it decodes to. */
  lemma DecodeStampRendering(s: string)
    requires DecodeStamp(s).Some?
    ensures var c := DecodeStamp(s).value;
            s == Digits(c.year, 4) + Digits(c.month, 2) + Digits(c.day, 2)
  {
    assert DecodeStamp(s).value == StampFields(s);
    StampParts(s);
  }

  /** Eight digits are the zero-padded renderings of the three fields they spell. */
  lemma StampParts(s: string)
    requires |s| == 8 && IsDigits(s)
    ensures var c := StampFields(s);
            s == Digits(c.year, 4) + Digits(c.month, 2) + Digits(c.day, 2)
  {
    var y, m, d := s[..4], s[4..6], s[6..];
    DigitsSlice(s, 0, 4);
    DigitsSlice(s, 4, 6);
    DigitsSlice(s, 6, 8);
    DigitsOfValue(y);
    DigitsOfValue(m);
    DigitsOfValue(d);
    assert s == y + m + d;
  }

  /** A slice of a digit string is a digit string. */
  lemma DigitsSlice(s: string, i: int, j: int)
    requires IsDigits(s) && 0 <= i <= j <= |s|
    ensures IsDigits(s[i..j])
  {
    assert forall k :: 0 <= k < j - i ==> s[i..j][k] == s[i + k];
  }

  /** A digit string is the zero-padded rendering of the number it denotes. */
  lemma {:induction false} DigitsOfValue(s: string)
    requires IsDigits(s)
    ensures 0 <= DecimalValue(s) < Pow10(|s|)
    ensures Digits(DecimalValue(s), |s|) == s
  {
    DecimalValueBound(s);
    if s != [] {
      var init := s[..|s| - 1];
      assert IsDigits(init) by {
        assert forall i :: 0 <= i < |init| ==> init[i] == s[i];
      }
      DigitsOfValue(init);
      var n := DecimalValue(s);
      var last := DigitValue(s[|s| - 1]);
      assert n == 10 * DecimalValue(init) + last && 0 <= last <= 9;
      assert n / 10 == DecimalValue(init) && n % 10 == last;
      assert s == init + [s[|s| - 1]];
    }
  }

  /** Decoding the stamp of a date gives back that date's year, month and day. */
  lemma StampRoundTrip(d: Date)
    ensures DecodeStamp(Stamp(d)) == Some(CivilFromDays(d))
    ensures DaysFromCivil(DecodeStamp(Stamp(d)).value) == d
  {
    var c := CivilFromDays(d);
    var s := Stamp(d);
    assert s[..4] == Digits(c.year, 4);
    assert s[4..6] == Digits(c.month, 2);
    assert s[6..] == Digits(c.day, 2);
    DigitsRoundTrip(c.year, 4);
    DigitsRoundTrip(c.month, 2);
    DigitsRoundTrip(c.day, 2);
    assert StampFields(s) == c;
    CivilFromDaysValid(d);
    CivilRoundTrip(d);
  }

  /** The full name of the snapshot of `dataset` taken on `d` (source lines 116-118 and 152-154). */
  function SnapshotName(dataset: string, prefix: string, d: Date): (name: string)
    ensures |name| == |dataset| + 1 + |prefix| + 8
    ensures name[..|dataset|] == dataset && name[|dataset|] == '@'
    ensures name[|dataset| + 1..|name| - 8] == prefix
    ensures name[|name| - 8..] == Stamp(d)
  {
    dataset + "@" + prefix + Stamp(d)
  }

  /** Different dates of one dataset get different snapshot names. */
  lemma SnapshotNameInjective(dataset: string, prefix: string, d1: Date, d2: Date)
    requires SnapshotName(dataset, prefix, d1) == SnapshotName(dataset, prefix, d2)
    ensures d1 == d2
  {
    var n1 := SnapshotName(dataset, prefix, d1);
    var n2 := SnapshotName(dataset, prefix, d2);
    assert Stamp(d1) == n1[|n1| - 8..] == n2[|n2| - 8..] == Stamp(d2);
    StampRoundTrip(d1);
    StampRoundTrip(d2);
  }
}

=== FILE: retention.dfy ===
/**
  The retention policy (source lines 137-151): from a dataset's snapshot
  dates, newest first, three tiers are picked independently — the newest
  `keepDays` dates, the newest `keepWeeks` dates falling on weekday `dow`,
  the newest `keepMonths` dates falling on day `dom` of their month — and
  every snapshot in none of them is deleted.
 */
module Retention {
  import opened Calendar
  import opened Catalog
  import opened Configuration

  /** The set of dates a sequence holds (Python's `set(list)`). */
  function Elements(s: seq<Date>): (e: set<Date>)
    ensures forall d :: d in e <==> d in s
  {
    set d | d in s
  }

  /**
    Python's slice `s[:k]`: the first `k` elements, all of them when `k`
    exceeds the length, and for a negative `k` all but the last `-k`.
   */
  function Take(s: seq<Date>, k: int): (r: seq<Date>)
    ensures r <= s
    ensures k >= 0 ==> |r| == if k < |s| then k else |s|
    ensures k < 0 ==> |r| == if |s| + k > 0 then |s| + k else 0
  {
    if k >= 0 then (if k < |s| then s[..k] else s)
    else (if |s| + k > 0 then s[..|s| + k] else [])
  }

  /** The calendar condition that makes a date eligible for a weekly or monthly tier. */
  datatype Anchor = Weekday(dow: int) | MonthDay(dom: int)

  /** Date `d` falls on the anchor. */
  predicate OnAnchor(d: Date, a: Anchor)
  {
    match a
    case Weekday(w) => IsoWeekday(d) == w
    case MonthDay(m) => DayOfMonth(d) == m
  }

  /** The dates of `s` that fall on the anchor, in their original order (the list comprehensions at 140 and 145). */
  function Filter(s: seq<Date>, a: Anchor): (r: seq<Date>)
    ensures forall d :: d in r <==> d in s && OnAnchor(d, a)
    ensures forall k :: 0 <= k < |r| ==> OnAnchor(r[k], a)
    ensures |r| <= |s|
  {
    if s == [] then []
    else
      var rest := Filter(s[1..], a);
      assert forall d :: d in s <==> d == s[0] || d in s[1..];
      if OnAnchor(s[0], a) then [s[0]] + rest else rest
  }

  /** The filter of a non-empty sequence: its first date if on the anchor, then the filter of the rest. */
  lemma FilterHead(s: seq<Date>, a: Anchor)
    requires s != []
    ensures Filter(s, a) == (if OnAnchor(s[0], a) then [s[0]] else []) + Filter(s[1..], a)
  {
  }

  /** Putting in front a date at least as recent as every later one keeps a sequence newest first. */
  lemma ConsNonIncreasing(x: Date, s: seq<Date>)
    requires NonIncreasing(s)
    requires forall k :: 0 <= k < |s| ==> x >= s[k]
    ensures NonIncreasing([x] + s)
  {
    var t := [x] + s;
    forall i, j | 0 <= i < j < |t|
      ensures t[i] >= t[j]
    {
      assert t[j] == s[j - 1];
      if i > 0 {
        assert t[i] == s[i - 1];
      }
    }
  }

  /** Putting in front a date more recent than every later one keeps a sequence strictly newest first. */
  lemma ConsStrictlyDescending(x: Date, s: seq<Date>)
    requires StrictlyDescending(s)
    requires forall k :: 0 <= k < |s| ==> x > s[k]
    ensures StrictlyDescending([x] + s)
  {
    var t := [x] + s;
    forall i, j | 0 <= i < j < |t|
      ensures t[i] > t[j]
    {
      assert t[j] == s[j - 1];
      if i > 0 {
        assert t[i] == s[i - 1];
      }
    }
  }

  /** Filtering keeps a newest-first sequence newest first. */
  lemma {:induction false} FilterNonIncreasing(s: seq<Date>, a: Anchor)
    requires NonIncreasing(s)
    ensures NonIncreasing(Filter(s, a))
  {
    if s != [] {
      assert NonIncreasing(s[1..]);
      FilterNonIncreasing(s[1..], a);
      FilterHead(s, a);
      var rest := Filter(s[1..], a);
      forall k | 0 <= k < |rest|
        ensures s[0] >= rest[k]
      {
        assert rest[k] in rest;
        var j :| 0 <= j < |s[1..]| && s[1..][j] == rest[k];
        assert s[j + 1] == rest[k];
      }
      if OnAnchor(s[0], a) {
        ConsNonIncreasing(s[0], rest);
      }
    }
  }

  /** Filtering keeps a strictly newest-first sequence strictly newest first. */
  lemma {:induction false} FilterStrictlyDescending(s: seq<Date>, a: Anchor)
    requires StrictlyDescending(s)
    ensures StrictlyDescending(Filter(s, a))
  {
    if s != [] {
      assert StrictlyDescending(s[1..]);
      FilterStrictlyDescending(s[1..], a);
      FilterHead(s, a);
      var rest := Filter(s[1..], a);
      forall k | 0 <= k < |rest|
        ensures s[0] > rest[k]
      {
        assert rest[k] in rest;
        var j :| 0 <= j < |s[1..]| && s[1..][j] == rest[k];
        assert s[j + 1] == rest[k];
      }
      if OnAnchor(s[0], a) {
        ConsStrictlyDescending(s[0], rest);
      }
    }
  }

  /** Filtering keeps the order: a newest-first sequence stays newest first, strictly if it was. */
  lemma FilterKeepsOrder(s: seq<Date>, a: Anchor)
    ensures NonIncreasing(s) ==> NonIncreasing(Filter(s, a))
    ensures StrictlyDescending(s) ==> StrictlyDescending(Filter(s, a))
  {
    if NonIncreasing(s) {
      FilterNonIncreasing(s, a);
    }
    if StrictlyDescending(s) {
      FilterStrictlyDescending(s, a);
    }
  }

  /** Filtering a concatenation filters each part. */
  lemma {:induction false} FilterAppend(s: seq<Date>, t: seq<Date>, a: Anchor)
    ensures Filter(s + t, a) == Filter(s, a) + Filter(t, a)
  {
    if s != [] {
      var u := s + t;
      assert u[0] == s[0] && u[1..] == s[1..] + t;
      FilterAppend(s[1..], t, a);
      FilterHead(u, a);
      FilterHead(s, a);
      var h := if OnAnchor(s[0], a) then [s[0]] else [];
      assert Filter(u, a) == h + (Filter(s[1..], a) + Filter(t, a));
      assert h + (Filter(s[1..], a) + Filter(t, a)) == (h + Filter(s[1..], a)) + Filter(t, a);
    } else {
      assert s + t == t;
    }
  }

  /** The daily tier: the first `keepDays` snapshots (line 138). */
  function DailyTier(p: Policy, s: seq<Date>): set<Date>
  {
    Elements(Take(s, p.keepDays))
  }

  /** The tier anchored at `a` that keeps `count` dates: the first `count` dates on the anchor. */
  function AnchoredTier(s: seq<Date>, a: Anchor, count: int): set<Date>
  {
    Elements(Take(Filter(s, a), count))
  }

  /** The weekly tier: the first `keepWeeks` snapshots taken on ISO weekday `dow` (lines 139-143). */
  function WeeklyTier(p: Policy, s: seq<Date>): set<Date>
  {
    AnchoredTier(s, Weekday(p.dow), p.keepWeeks)
  }

  /** The monthly tier: the first `keepMonths` snapshots taken on day `dom` of a month (lines 144-148). */
  function MonthlyTier(p: Policy, s: seq<Date>): set<Date>
  {
    AnchoredTier(s, MonthDay(p.dom), p.keepMonths)
  }

  /** The snapshots to keep: the union of the three tiers (line 149). */
  function KeepSet(p: Policy, s: seq<Date>): (keep: set<Date>)
    ensures keep <= Elements(s)
    ensures DailyTier(p, s) <= keep && WeeklyTier(p, s) <= keep && MonthlyTier(p, s) <= keep
    ensures forall d :: d in keep ==> d in DailyTier(p, s) || d in WeeklyTier(p, s) || d in MonthlyTier(p, s)
  {
    TakeWithin(s, p.keepDays);
    TakeWithin(Filter(s, Weekday(p.dow)), p.keepWeeks);
    TakeWithin(Filter(s, MonthDay(p.dom)), p.keepMonths);
    DailyTier(p, s) + WeeklyTier(p, s) + MonthlyTier(p, s)
  }

  /** A slice holds only dates of the sequence sliced. */
  lemma TakeWithin(s: seq<Date>, k: int)
    ensures Elements(Take(s, k)) <= Elements(s)
  {
    forall d | d in Take(s, k)
      ensures d in s
    {
      var i :| 0 <= i < |Take(s, k)| && Take(s, k)[i] == d;
      assert s[i] == d;
    }
  }

  /** The snapshots to destroy: every snapshot not kept (line 151). */
  function DeletionSet(p: Policy, s: seq<Date>): (del: set<Date>)
    ensures del !! KeepSet(p, s)
    ensures del + KeepSet(p, s) == Elements(s)
    ensures forall d :: d in del <==> d in s && d !in KeepSet(p, s)
  {
    Elements(s) - KeepSet(p, s)
  }

  // ---------------------------------------------------------------------
  // Bounds

  /** A sequence has at least as many elements as the set of its values. */
  lemma {:induction false} ElementsCardinality(s: seq<Date>)
    ensures |Elements(s)| <= |s|
  {
    if s != [] {
      ElementsCardinality(s[1..]);
      assert Elements(s) == {s[0]} + Elements(s[1..]);
    }
  }

  /** A sequence without repeats has exactly as many elements as the set of its values. */
  lemma {:induction false} DistinctElementsCardinality(s: seq<Date>)
    requires Distinct(s)
    ensures |Elements(s)| == |s|
  {
    if s != [] {
      assert Distinct(s[1..]);
      DistinctElementsCardinality(s[1..]);
      assert Elements(s) == {s[0]} + Elements(s[1..]);
      assert s[0] !in Elements(s[1..]);
    }
  }

  /** A tier of non-negative count `k` holds at most `k` dates. */
  lemma TakeElementsBound(s: seq<Date>, k: int)
    requires k >= 0
    ensures |Elements(Take(s, k))| <= k
  {
    ElementsCardinality(Take(s, k));
  }

  /**
    With non-negative counts, at most `keepDays + keepWeeks + keepMonths`
    snapshots survive: a date picked by two tiers is kept once.
   */
  lemma KeepSetBound(p: Policy, s: seq<Date>)
    requires p.keepDays >= 0 && p.keepWeeks >= 0 && p.keepMonths >= 0
    ensures |KeepSet(p, s)| <= p.keepDays + p.keepWeeks + p.keepMonths
  {
    var daily, weekly, monthly := DailyTier(p, s), WeeklyTier(p, s), MonthlyTier(p, s);
    TakeElementsBound(s, p.keepDays);
    TakeElementsBound(Filter(s, Weekday(p.dow)), p.keepWeeks);
    TakeElementsBound(Filter(s, MonthDay(p.dom)), p.keepMonths);
    assert |daily + weekly| <= |daily| + |weekly|;
    assert |daily + weekly + monthly| <= |daily + weekly| + |monthly|;
  }

  // ---------------------------------------------------------------------
  // Recency: each tier holds the newest eligible dates

  /** In a newest-first sequence, whatever the first `k` hold is newer than everything they miss. */
  lemma TakeIsNewest(s: seq<Date>, k: int, x: Date, y: Date)
    requires NonIncreasing(s)
    requires x in Elements(Take(s, k))
    requires y in s && y !in Elements(Take(s, k))
    ensures x > y
  {
    var t := Take(s, k);
    var i :| 0 <= i < |t| && t[i] == x;
    var j :| 0 <= j < |s| && s[j] == y;
    assert s[i] == x;
  }

  /**
    The daily tier is exactly the first `keepDays` snapshots (all of them
    when there are fewer), and each of them is newer than every snapshot
    left out of it.
   */
  lemma DailyTierIsNewest(p: Policy, s: seq<Date>)
    requires NonIncreasing(s)
    requires p.keepDays >= 0
    ensures DailyTier(p, s) == Elements(s[..if p.keepDays < |s| then p.keepDays else |s|])
    ensures forall x, y :: x in DailyTier(p, s) && y in s && y !in DailyTier(p, s) ==> x > y
  {
    forall x, y | x in DailyTier(p, s) && y in s && y !in DailyTier(p, s)
      ensures x > y
    {
      TakeIsNewest(s, p.keepDays, x, y);
    }
  }

  /**
    An anchored tier holds only dates on its anchor, at most `count` of
    them, and each is newer than every date on the anchor it leaves out;
    when there are no more than `count` dates on the anchor, it holds all.
   */
  lemma AnchoredTierIsNewest(s: seq<Date>, a: Anchor, count: int)
    requires NonIncreasing(s)
    requires count >= 0
    ensures forall d :: d in AnchoredTier(s, a, count) ==> d in s && OnAnchor(d, a)
    ensures |AnchoredTier(s, a, count)| <= count
    ensures forall x, y ::
              x in AnchoredTier(s, a, count) && y in s && OnAnchor(y, a) && y !in AnchoredTier(s, a, count) ==> x > y
    ensures |Filter(s, a)| <= count ==> AnchoredTier(s, a, count) == set d | d in s && OnAnchor(d, a)
    ensures StrictlyDescending(s) ==>
              |AnchoredTier(s, a, count)| == if count < |Filter(s, a)| then count else |Filter(s, a)|
  {
    var f := Filter(s, a);
    FilterKeepsOrder(s, a);
    TakeElementsBound(f, count);
    if StrictlyDescending(s) {
      FilterStrictlyDescending(s, a);
      assert Distinct(Take(f, count));
      DistinctElementsCardinality(Take(f, count));
    }
    forall x, y | x in AnchoredTier(s, a, count) && y in s && OnAnchor(y, a) && y !in AnchoredTier(s, a, count)
      ensures x > y
    {
      TakeIsNewest(f, count, x, y);
    }
  }

  /** The weekly tier holds the newest (at most `keepWeeks`) snapshots taken on weekday `dow`. */
  lemma WeeklyTierIsNewest(p: Policy, s: seq<Date>)
    requires NonIncreasing(s)
    requires p.keepWeeks >= 0
    ensures forall d :: d in WeeklyTier(p, s) ==> d in s && IsoWeekday(d) == p.dow
    ensures |WeeklyTier(p, s)| <= p.keepWeeks
    ensures forall x, y ::
              x in WeeklyTier(p, s) && y in s && IsoWeekday(y) == p.dow && y !in WeeklyTier(p, s) ==> x > y
    ensures StrictlyDescending(s) ==>
              var eligible := |Filter(s, Weekday(p.dow))|;
              |WeeklyTier(p, s)| == if p.keepWeeks < eligible then p.keepWeeks else eligible
  {
    AnchoredTierIsNewest(s, Weekday(p.dow), p.keepWeeks);
  }

  /** The monthly tier holds the newest (at most `keepMonths`) snapshots taken on day `dom`. */
  lemma MonthlyTierIsNewest(p: Policy, s: seq<Date>)
    requires NonIncreasing(s)
    requires p.keepMonths >= 0
    ensures forall d :: d in MonthlyTier(p, s) ==> d in s && DayOfMonth(d) == p.dom
    ensures |MonthlyTier(p, s)| <= p.keepMonths
    ensures forall x, y ::
              x in MonthlyTier(p, s) && y in s && DayOfMonth(y) == p.dom && y !in MonthlyTier(p, s) ==> x > y
    ensures StrictlyDescending(s) ==>
              var eligible := |Filter(s, MonthDay(p.dom))|;
              |MonthlyTier(p, s)| == if p.keepMonths < eligible then p.keepMonths else eligible
  {
    AnchoredTierIsNewest(s, MonthDay(p.dom), p.keepMonths);
  }

  // ---------------------------------------------------------------------
  // A reference definition by rank

  /** The dates of `s` strictly newer than `d`. */
  function NewerThan(s: seq<Date>, d: Date): set<Date>
  {
    set e | e in s && e > d
  }

  /** In a strictly newest-first sequence, the dates newer than `s[i]` are exactly the first `i`. */
  lemma NewerThanIsPrefix(s: seq<Date>, i: int)
    requires StrictlyDescending(s)
    requires 0 <= i < |s|
    ensures NewerThan(s, s[i]) == Elements(s[..i])
    ensures |NewerThan(s, s[i])| == i
  {
    assert Distinct(s[..i]);
    DistinctElementsCardinality(s[..i]);
  }

  /**
    A date survives the first `k` of a strictly newest-first sequence
    exactly when fewer than `k` of its dates are newer than it.
   */
  lemma TakeByRank(s: seq<Date>, k: int, d: Date)
    requires StrictlyDescending(s)
    requires k >= 0
    ensures d in Elements(Take(s, k)) <==> d in s && |NewerThan(s, d)| < k
  {
    if d in s {
      var i :| 0 <= i < |s| && s[i] == d;
      NewerThanIsPrefix(s, i);
      if d in Take(s, k) {
        var j :| 0 <= j < |Take(s, k)| && Take(s, k)[j] == d;
        assert s[j] == d;
      }
      if i < k {
        assert Take(s, k)[i] == d;
      }
    }
  }

  /** The dates of `s` on the anchor that are strictly newer than `d`. */
  function NewerOnAnchor(s: seq<Date>, a: Anchor, d: Date): set<Date>
  {
    set e | e in s && OnAnchor(e, a) && e > d
  }

  /** A date is in an anchored tier exactly when it is on the anchor and fewer than `count` anchored dates are newer. */
  lemma AnchoredTierByRank(s: seq<Date>, a: Anchor, count: int, d: Date)
    requires StrictlyDescending(s)
    requires count >= 0
    ensures d in AnchoredTier(s, a, count) <==> d in s && OnAnchor(d, a) && |NewerOnAnchor(s, a, d)| < count
  {
    FilterKeepsOrder(s, a);
    TakeByRank(Filter(s, a), count, d);
    assert NewerThan(Filter(s, a), d) == NewerOnAnchor(s, a, d);
  }

  /**
    Reference definition of the keep set: a snapshot is kept exactly when
    fewer than `keepDays` snapshots are newer, or it falls on weekday `dow`
    and fewer than `keepWeeks` such snapshots are newer, or it falls on day
    `dom` and fewer than `keepMonths` such snapshots are newer. Each tier
    ranks a date only among the dates eligible for that tier, so no tier's
    picks use up another tier's count.
   */
  lemma KeepSetByRank(p: Policy, s: seq<Date>, d: Date)
    requires StrictlyDescending(s)
    requires p.keepDays >= 0 && p.keepWeeks >= 0 && p.keepMonths >= 0
    ensures d in KeepSet(p, s) <==>
              d in s &&
              (|NewerThan(s, d)| < p.keepDays
               || (IsoWeekday(d) == p.dow && |NewerOnAnchor(s, Weekday(p.dow), d)| < p.keepWeeks)
               || (DayOfMonth(d) == p.dom && |NewerOnAnchor(s, MonthDay(p.dom), d)| < p.keepMonths))
  {
    TakeByRank(s, p.keepDays, d);
    AnchoredTierByRank(s, Weekday(p.dow), p.keepWeeks, d);
    AnchoredTierByRank(s, MonthDay(p.dom), p.keepMonths, d);
  }

  // ---------------------------------------------------------------------
  // Consequences

  /**
    A snapshot outside the daily tier that falls neither on weekday `dow`
    nor on day `dom` is always deleted, however recent it is.
   */
  lemma OffAnchorDeleted(p: Policy, s: seq<Date>, d: Date)
    requires d in s && d !in DailyTier(p, s)
    requires IsoWeekday(d) != p.dow && DayOfMonth(d) != p.dom
    ensures d in DeletionSet(p, s)
  {
  }

  /** With every count at zero, every snapshot is deleted. */
  lemma ZeroCountsKeepNothing(p: Policy, s: seq<Date>)
    requires p.keepDays == 0 && p.keepWeeks == 0 && p.keepMonths == 0
    ensures KeepSet(p, s) == {}
    ensures DeletionSet(p, s) == Elements(s)
  {
  }

  /** The first `k` are among the first `k'` when `0 <= k <= k'`. */
  lemma TakeMonotone(s: seq<Date>, k: int, k': int)
    requires 0 <= k <= k'
    ensures Elements(Take(s, k)) <= Elements(Take(s, k'))
  {
    assert Take(s, k) <= Take(s, k');
  }

  /**
    Raising any count never deletes a snapshot the lower count kept, since
    the tiers are picked independently of each other.
   */
  lemma KeepSetMonotone(p: Policy, q: Policy, s: seq<Date>)
    requires p.dow == q.dow && p.dom == q.dom
    requires 0 <= p.keepDays <= q.keepDays
    requires 0 <= p.keepWeeks <= q.keepWeeks
    requires 0 <= p.keepMonths <= q.keepMonths
    ensures KeepSet(p, s) <= KeepSet(q, s)
    ensures DeletionSet(q, s) <= DeletionSet(p, s)
  {
    TakeMonotone(s, p.keepDays, q.keepDays);
    TakeMonotone(Filter(s, Weekday(p.dow)), p.keepWeeks, q.keepWeeks);
    TakeMonotone(Filter(s, MonthDay(p.dom)), p.keepMonths, q.keepMonths);
  }

  /** The dates of `s` strictly older than `d`. */
  function OlderThan(s: seq<Date>, d: Date): set<Date>
  {
    set e | e in s && e < d
  }

  /** In a strictly newest-first sequence, the dates older than `s[i]` are exactly those after it. */
  lemma OlderThanIsSuffix(s: seq<Date>, i: int)
    requires StrictlyDescending(s)
    requires 0 <= i < |s|
    ensures OlderThan(s, s[i]) == Elements(s[i + 1..])
    ensures |OlderThan(s, s[i])| == |s| - i - 1
  {
    var rest := s[i + 1..];
    forall e | e in OlderThan(s, s[i])
      ensures e in rest
    {
      var j :| 0 <= j < |s| && s[j] == e;
      assert rest[j - i - 1] == e;
    }
    assert Distinct(rest);
    DistinctElementsCardinality(rest);
  }

  /**
    A negative count is not rejected: Python's slice then keeps a date of a
    strictly newest-first sequence exactly when at least `-k` of its dates
    are older, so the `-k` oldest are dropped.
   */
  lemma NegativeCountKeepsAllButOldest(s: seq<Date>, k: int, d: Date)
    requires StrictlyDescending(s)
    requires k < 0
    ensures d in Elements(Take(s, k)) <==> d in s && |OlderThan(s, d)| >= -k
  {
    if d in s {
      var i :| 0 <= i < |s| && s[i] == d;
      OlderThanIsSuffix(s, i);
      if d in Take(s, k) {
        var j :| 0 <= j < |Take(s, k)| && Take(s, k)[j] == d;
        assert s[j] == d;
      }
      if i < |s| + k {
        assert Take(s, k)[i] == d;
      }
    }
  }
}

=== FILE: scenarios.dfy ===
/**
  Worked examples of the retention core on concrete dates. Dates are
  written as ordinals: 738895 is 2024-01-10 (a Wednesday), 738892 is
  2024-01-07 (a Sunday), 738885 is 2023-12-31 (a Sunday).

  Several lemmas take their sample sequences as parameters pinned by a
  `requires x == [...]` instead of writing the literal inline: the
  verifier then evaluates each filter and tier over a short named
  sequence, one step at a time, instead of unfolding the whole literal at
  every use.
 */
module Scenarios {
  import opened Wrappers
  import opened Calendar
  import opened Naming
  import opened Catalog
  import opened Configuration
  import opened Retention
  import opened Scheduler

  /** Evaluates `CivilFromDays` on a concrete date from its cycle, day of cycle, year of cycle and month. */
  lemma EvalCivil(d: Date, era: int, doe: int, yoe: int, mp: int)
    requires (d + 305) / 146097 == era && (d + 305) % 146097 == doe
    requires YearOfEra(doe) == yoe
    requires MonthFromMarch(doe - (365 * yoe + yoe / 4 - yoe / 100)) == mp
    ensures CivilFromDays(d) == Civil(yoe + era * 400 + (if mp >= 10 then 1 else 0),
                                      if mp < 10 then mp + 3 else mp - 9,
                                      doe - (365 * yoe + yoe / 4 - yoe / 100) - (153 * mp + 2) / 5 + 1)
  {
  }

  /** Ordinal 1 is Monday 0001-01-01. */
  lemma FirstDate()
    ensures CivilFromDays(1) == Civil(1, 1, 1) && IsoWeekday(1) == 1
  {
    EvalCivil(1, 0, 306, 0, 10);
  }

  /** Ordinal 3652059 is 9999-12-31. */
  lemma LastDate()
    ensures CivilFromDays(3652059) == Civil(9999, 12, 31)
  {
    EvalCivil(3652059, 24, 146036, 399, 9);
  }

  /** Ordinal 738895 is Wednesday 2024-01-10. */
  lemma KnownDate()
    ensures CivilFromDays(738895) == Civil(2024, 1, 10) && IsoWeekday(738895) == 3
  {
    EvalCivil(738895, 5, 8715, 23, 10);
  }

  /** 2024 is a leap year: 29 February is followed by 1 March. */
  lemma LeapDay()
    ensures CivilFromDays(738945) == Civil(2024, 2, 29)
    ensures CivilFromDays(738946) == Civil(2024, 3, 1)
  {
    EvalCivil(738945, 5, 8765, 23, 11);
    EvalCivil(738946, 5, 8766, 24, 0);
  }

  /** The stamp of 2024-01-10 is `20240110`. */
  lemma KnownStamp(d: Date)
    requires d == 738895
    ensures Stamp(d) == "20240110"
  {
    KnownDate();
    KnownYearDigits();
    assert Digits(0, 1) == "0";
    assert Digits(1, 2) == "01";
    assert Digits(1, 1) == "1";
    assert Digits(10, 2) == "10";
  }

  /** The year 2024 is written `2024`. */
  lemma KnownYearDigits()
    ensures Digits(2024, 4) == "2024"
  {
    assert Digits(2, 1) == "2";
    assert Digits(20, 2) == "20";
    assert Digits(202, 3) == "202";
  }

  /**
    With `snapshot_prefix = "auto-"` configured, today's snapshot of `tank`
    on 2024-01-10 is named `tank@auto-20240110`.
   */
  lemma KnownName(c: Config, today: Date)
    requires c.snapshotPrefix == Some("auto-")
    requires today == 738895
    ensures SnapshotName("tank", SnapshotPrefix(c), today) == "tank@auto-20240110"
  {
    KnownStamp(today);
    assert SnapshotPrefix(c) == "auto-";
  }

  /** Without a configured prefix the same snapshot is named `tank@20240110`. */
  lemma KnownUnprefixedName(c: Config, today: Date)
    requires c.snapshotPrefix.None?
    requires today == 738895
    ensures SnapshotName("tank", SnapshotPrefix(c), today) == "tank@20240110"
  {
    KnownStamp(today);
    assert SnapshotPrefix(c) == "";
  }

  /** The year 2024 reads back from `2024`. */
  lemma KnownYearValue(y: string)
    requires y == "2024"
    ensures DecimalValue(y) == 2024
  {
    assert y[..3] == "202" && "202"[..2] == "20" && "20"[..1] == "2";
    assert DecimalValue("2") == 2;
    assert DecimalValue("20") == 20;
    assert DecimalValue("202") == 202;
  }

  /** `20240231` is refused: February 2024 has 29 days. */
  lemma ImpossibleDayRefused(s: string)
    requires s == "20240231"
    ensures DecodeStamp(s) == None
  {
    KnownYearValue(s[..4]);
    assert s[4..6] == "02" && "02"[..1] == "0";
    assert s[6..] == "31" && "31"[..1] == "3";
    assert DecimalValue("02") == 2 && DecimalValue("31") == 31;
    assert StampFields(s) == Civil(2024, 2, 31);
  }

  /** `20241399` is refused: there is no thirteenth month. */
  lemma ImpossibleMonthRefused(s: string)
    requires s == "20241399"
    ensures DecodeStamp(s) == None
  {
    assert s[4..6] == "13" && "13"[..1] == "1";
    assert DecimalValue("13") == 13;
    assert StampFields(s).month == 13;
  }

  /** `00000101` is refused: `%Y` has no year 0. */
  lemma YearZeroRefused(s: string)
    requires s == "00000101"
    ensures DecodeStamp(s) == None
  {
    assert s[..4] == "0000" && "0000"[..3] == "000" && "000"[..2] == "00" && "00"[..1] == "0";
    assert DecimalValue("00") == 0 && DecimalValue("000") == 0 && DecimalValue("0000") == 0;
    assert StampFields(s).year == 0;
  }

  /** `2024011a` is refused: a stamp is all digits. */
  lemma NonDigitRefused(s: string)
    requires s == "2024011a"
    ensures DecodeStamp(s) == None
  {
    assert s[7] == 'a';
  }

  /** A policy for dataset `tank` with the given counts and anchors. */
  function Tank(keepDays: int, keepWeeks: int, keepMonths: int, dow: int, dom: int): Policy
  {
    Policy("tank", DefaultRecursive, dom, dow, keepDays, keepWeeks, keepMonths)
  }

  /** A tier with count zero is empty, whatever the dates. */
  lemma ZeroCountTierEmpty(s: seq<Date>, a: Anchor)
    ensures AnchoredTier(s, a, 0) == {}
  {
    assert Take(Filter(s, a), 0) == [];
  }

  /** The daily tier of the daily scenario holds the three latest dates; the other tiers are empty. */
  lemma DailyScenarioTiers(p: Policy, s: seq<Date>)
    requires p == Tank(3, 0, 0, DefaultDow, DefaultDom)
    requires s == [738895, 738894, 738893, 738892]
    ensures DailyTier(p, s) == {738895, 738894, 738893} && WeeklyTier(p, s) == {} && MonthlyTier(p, s) == {}
  {
    assert Take(s, 3) == [738895, 738894, 738893];
    ZeroCountTierEmpty(s, Weekday(p.dow));
    ZeroCountTierEmpty(s, MonthDay(p.dom));
  }

  /** The daily scenario keeps the three latest days. */
  lemma DailyScenarioKeep(p: Policy, s: seq<Date>)
    requires p == Tank(3, 0, 0, DefaultDow, DefaultDom)
    requires s == [738895, 738894, 738893, 738892]
    ensures KeepSet(p, s) == {738895, 738894, 738893}
  {
    DailyScenarioTiers(p, s);
  }

  /** The dates of the daily scenario, as a set. */
  lemma DailyScenarioElements(s: seq<Date>)
    requires s == [738895, 738894, 738893, 738892]
    ensures Elements(s) == {738895, 738894, 738893, 738892}
  {
  }

  /** Removing the three kept days from the four dates of the daily scenario leaves the oldest. */
  lemma DailyScenarioRest(all: set<Date>, keep: set<Date>)
    requires all == {738895, 738894, 738893, 738892}
    requires keep == {738895, 738894, 738893}
    ensures all - keep == {738892}
  {
  }

  /** Three daily snapshots kept out of 2024-01-10 back to 2024-01-07: the oldest goes. */
  lemma DailyScenario(p: Policy, s: seq<Date>)
    requires p == Tank(3, 0, 0, DefaultDow, DefaultDom)
    requires s == [738895, 738894, 738893, 738892]
    ensures KeepSet(p, s) == {738895, 738894, 738893} && DeletionSet(p, s) == {738892}
  {
    DailyScenarioKeep(p, s);
    DailyScenarioElements(s);
    var all := Elements(s);
    var keep := KeepSet(p, s);
    DailyScenarioRest(all, keep);
    assert DeletionSet(p, s) == all - keep;
  }

  /*
    The weekly scenario runs on 2024-01-10 back to 2023-12-10, split in two
    parts to keep each evaluation small: `newer` is Wednesday 01-10, Sunday
    01-07 and Friday 01-05; `older` is Sunday 12-31, Tuesday 12-26, Sunday
    12-24 and Sunday 12-17.
   */

  /** Of the newer part of the weekly scenario, only 01-07 is a Sunday. */
  lemma WeeklyScenarioNewerSundays(newer: seq<Date>)
    requires newer == [738895, 738892, 738890]
    ensures Filter(newer, Weekday(7)) == [738892]
  {
    assert Filter([738895, 738892, 738890], Weekday(7)) == [738892];
  }

  /** Of the older part of the weekly scenario, all but 12-26 are Sundays. */
  lemma WeeklyScenarioOlderSundays(older: seq<Date>)
    requires older == [738885, 738880, 738878, 738871]
    ensures Filter(older, Weekday(7)) == [738885, 738878, 738871]
  {
    assert Filter([738885, 738880, 738878, 738871], Weekday(7)) == [738885, 738878, 738871];
  }

  /** The filter of a concatenation, from the filters of its two parts. */
  lemma FilterJoin(s: seq<Date>, t: seq<Date>, a: Anchor, fs: seq<Date>, ft: seq<Date>)
    requires Filter(s, a) == fs && Filter(t, a) == ft
    ensures Filter(s + t, a) == fs + ft
  {
    FilterAppend(s, t, a);
  }

  /** The Sundays of the weekly scenario, newest first. */
  lemma WeeklyScenarioSundays(newer: seq<Date>, older: seq<Date>)
    requires newer == [738895, 738892, 738890] && older == [738885, 738880, 738878, 738871]
    ensures Filter(newer + older, Weekday(7)) == [738892, 738885, 738878, 738871]
  {
    WeeklyScenarioNewerSundays(newer);
    WeeklyScenarioOlderSundays(older);
    FilterJoin(newer, older, Weekday(7), [738892], [738885, 738878, 738871]);
  }

  /** The Sunday tier of the weekly scenario holds the two latest Sundays; the other tiers are empty. */
  lemma WeeklyScenarioTiers(p: Policy, newer: seq<Date>, older: seq<Date>)
    requires p == Tank(0, 2, 0, 7, DefaultDom)
    requires newer == [738895, 738892, 738890] && older == [738885, 738880, 738878, 738871]
    ensures DailyTier(p, newer + older) == {}
    ensures WeeklyTier(p, newer + older) == {738892, 738885}
    ensures MonthlyTier(p, newer + older) == {}
  {
    WeeklyScenarioSundays(newer, older);
    assert Take([738892, 738885, 738878, 738871], 2) == [738892, 738885];
  }

  /** The dates of the weekly scenario, as a set. */
  lemma WeeklyScenarioElements(newer: seq<Date>, older: seq<Date>)
    requires newer == [738895, 738892, 738890] && older == [738885, 738880, 738878, 738871]
    ensures Elements(newer + older) == {738895, 738892, 738890, 738885, 738880, 738878, 738871}
  {
    assert Elements(newer) == {738895, 738892, 738890};
    assert Elements(older) == {738885, 738880, 738878, 738871};
    assert Elements(newer + older) == Elements(newer) + Elements(older);
  }

  /** The weekly scenario keeps the two latest Sundays. */
  lemma WeeklyScenarioKeep(p: Policy, newer: seq<Date>, older: seq<Date>)
    requires p == Tank(0, 2, 0, 7, DefaultDom)
    requires newer == [738895, 738892, 738890] && older == [738885, 738880, 738878, 738871]
    ensures KeepSet(p, newer + older) == {738892, 738885}
  {
    WeeklyScenarioTiers(p, newer, older);
  }

  /** Removing the two kept Sundays from the seven dates of the weekly scenario leaves the other five. */
  lemma WeeklyScenarioRest(all: set<Date>, keep: set<Date>)
    requires all == {738895, 738892, 738890, 738885, 738880, 738878, 738871}
    requires keep == {738892, 738885}
    ensures all - keep == {738895, 738890, 738880, 738878, 738871}
  {
  }

  /**
    Two weekly snapshots kept on Sundays, out of four Sundays and three
    other days: the two latest Sundays stay, every other day goes however
    recent.
   */
  lemma WeeklyScenario(p: Policy, newer: seq<Date>, older: seq<Date>)
    requires p == Tank(0, 2, 0, 7, DefaultDom)
    requires newer == [738895, 738892, 738890] && older == [738885, 738880, 738878, 738871]
    ensures KeepSet(p, newer + older) == {738892, 738885}
    ensures DeletionSet(p, newer + older) == {738895, 738890, 738880, 738878, 738871}
  {
    WeeklyScenarioKeep(p, newer, older);
    WeeklyScenarioElements(newer, older);
    var all := Elements(newer + older);
    var keep := KeepSet(p, newer + older);
    WeeklyScenarioRest(all, keep);
    assert DeletionSet(p, newer + older) == all - keep;
  }

  /** A monthly tier whose day no snapshot falls on keeps nothing, and raises no error. */
  lemma MonthlyScenario()
    ensures var p := Tank(0, 0, 1, DefaultDow, 1);
            var s := [738895, 738885];
            MonthlyTier(p, s) == {} && DeletionSet(p, s) == Elements(s)
  {
    KnownDate();
    EvalCivil(738885, 5, 8705, 23, 9);
    assert Filter([738895, 738885], MonthDay(1)) == [];
  }

  /**
    Today's snapshot already exists and one daily snapshot is kept: the
    pass creates nothing and, since it stops at the existence check,
    destroys nothing either, though three older snapshots lie beyond the
    daily count.
   */
  lemma AlreadyExistsScenario()
    ensures var listing := [Entry("tank", 738892), Entry("tank", 738895), Entry("tank", 738894), Entry("tank", 738893)];
            Step(listing, Tank(1, 0, 0, DefaultDow, DefaultDom), 738895) == listing
  {
    var listing := [Entry("tank", 738892), Entry("tank", 738895), Entry("tank", 738894), Entry("tank", 738893)];
    assert listing[1] == Entry("tank", 738895);
    AlreadyExistsNoAction(listing, Tank(1, 0, 0, DefaultDow, DefaultDom), 738895);
  }
}

=== FILE: scheduler.dfy ===
/**
  The per-dataset loop of `main` (source lines 107-170): decide whether a
  dataset is due today, skip it entirely when today's snapshot already
  exists, otherwise create today's snapshot, re-read the snapshots and
  destroy every one the retention policy does not keep.

  The backend is modelled as its listing of managed snapshots; creating
  and destroying snapshots become edits of that listing, and every backend
  operation is taken to succeed.
 */
module Scheduler {
  import opened Wrappers
  import opened Calendar
  import opened Catalog
  import opened Configuration
  import opened Retention

  /** The due check (lines 108-112): some enabled tier wants a snapshot today. */
  predicate IsDue(p: Policy, today: Date)
    ensures IsDue(p, today) ==> p.keepDays > 0 || p.keepWeeks > 0 || p.keepMonths > 0
    ensures p.keepDays > 0 ==> IsDue(p, today)
    ensures p.keepWeeks > 0 && IsoWeekday(today) == p.dow ==> IsDue(p, today)
    ensures p.keepMonths > 0 && DayOfMonth(today) == p.dom ==> IsDue(p, today)
  {
    || p.keepDays > 0
    || (p.keepWeeks > 0 && IsoWeekday(today) == p.dow)
    || (p.keepMonths > 0 && DayOfMonth(today) == p.dom)
  }

  /** What one pass over one dataset asks of the backend. */
  datatype Decision = Decision(create: bool, destroy: set<Date>)

  /** Neither create nor destroy anything. */
  const NoAction := Decision(false, {})

  /**
    The decision for one dataset. `before` is its catalog when the
    already-exists check runs (line 120); `after` is its catalog re-read
    once the create was attempted (line 137). A dataset that is not due, or
    already has today's snapshot, is left alone: the `continue` at line 122
    skips the pruning as well as the create.
   */
  function Decide(p: Policy, today: Date, before: seq<Date>, after: seq<Date>): (r: Decision)
    ensures r.create <==> IsDue(p, today) && today !in before
    ensures !r.create ==> r.destroy == {}
    ensures r.destroy <= Elements(after) && r.destroy !! KeepSet(p, after)
    ensures r.create ==> r.destroy + KeepSet(p, after) == Elements(after)
  {
    if !IsDue(p, today) then NoAction
    else if today in before then NoAction
    else Decision(true, DeletionSet(p, after))
  }

  // ---------------------------------------------------------------------
  // The due check

  /** With every count at zero, a dataset is never due, whatever the date. */
  lemma ZeroCountsNeverDue(p: Policy)
    requires p.keepDays == 0 && p.keepWeeks == 0 && p.keepMonths == 0
    ensures forall today: Date :: !IsDue(p, today)
  {
  }

  /**
    With the daily tier enabled a dataset is due every day; otherwise it is
    due exactly on the weekday `dow` if the weekly tier is enabled and on
    the day `dom` if the monthly tier is.
   */
  lemma DueDays(p: Policy, today: Date)
    ensures p.keepDays > 0 ==> IsDue(p, today)
    ensures p.keepDays <= 0 ==>
              (IsDue(p, today) <==> (p.keepWeeks > 0 && IsoWeekday(today) == p.dow)
                                    || (p.keepMonths > 0 && DayOfMonth(today) == p.dom))
  {
  }

  /** The newest date of a newest-first sequence whose dates are all at most `x` and which holds `x` is `x`. */
  lemma NewestIsFirst(s: seq<Date>, x: Date)
    requires NonIncreasing(s)
    requires x in s
    requires forall d :: d in s ==> d <= x
    ensures s[0] == x
  {
    var i :| 0 <= i < |s| && s[i] == x;
    assert s[0] in s;
  }

  /** A positive count keeps the first date. */
  lemma TakeKeepsFirst(s: seq<Date>, k: int)
    requires k > 0 && |s| > 0
    ensures s[0] in Elements(Take(s, k))
  {
    assert Take(s, k)[0] == s[0];
  }

  /**
    An anchored tier with a positive count keeps `x`, when `x` is on the
    anchor and no snapshot is newer than it.
   */
  lemma AnchoredTierKeepsNewest(s: seq<Date>, a: Anchor, count: int, x: Date)
    requires NonIncreasing(s)
    requires x in s && OnAnchor(x, a)
    requires forall d :: d in s ==> d <= x
    requires count > 0
    ensures x in AnchoredTier(s, a, count)
  {
    var f := Filter(s, a);
    FilterKeepsOrder(s, a);
    NewestIsFirst(f, x);
    TakeKeepsFirst(f, count);
  }

  /**
    Whenever a dataset is due, the policy keeps the snapshot just taken:
    if today's capture is the newest one, it survives the pruning of the
    same pass.
   */
  lemma DueKeepsToday(p: Policy, today: Date, s: seq<Date>)
    requires NonIncreasing(s)
    requires today in s
    requires forall d :: d in s ==> d <= today
    requires IsDue(p, today)
    ensures today in KeepSet(p, s)
  {
    if p.keepDays > 0 {
      NewestIsFirst(s, today);
      TakeKeepsFirst(s, p.keepDays);
    } else if p.keepWeeks > 0 && IsoWeekday(today) == p.dow {
      AnchoredTierKeepsNewest(s, Weekday(p.dow), p.keepWeeks, today);
    } else {
      AnchoredTierKeepsNewest(s, MonthDay(p.dom), p.keepMonths, today);
    }
  }

  /**
    With non-negative counts, a dataset is due on `today` exactly when the
    policy would keep a capture taken today on top of older snapshots: the
    due check asks whether some tier wants today's snapshot.
   */
  lemma DueIffCaptureKept(p: Policy, today: Date, s: seq<Date>)
    requires p.keepDays >= 0 && p.keepWeeks >= 0 && p.keepMonths >= 0
    requires NonIncreasing(s)
    requires forall d :: d in s ==> d < today
    ensures NonIncreasing([today] + s)
    ensures IsDue(p, today) <==> today in KeepSet(p, [today] + s)
  {
    var t := [today] + s;
    assert forall d :: d in t ==> d <= today;
    forall i, j | 0 <= i < j < |t|
      ensures t[i] >= t[j]
    {
      assert t[j] == s[j - 1] && s[j - 1] in s;
      if i > 0 {
        assert t[i] == s[i - 1];
      }
    }
    if IsDue(p, today) {
      DueKeepsToday(p, today, t);
    }
  }

  // ---------------------------------------------------------------------
  // The backend as a listing

  /** Removes the snapshots of `dataset` taken on the dates in `dates` (the `zfs destroy` loop). */
  function Destroy(listing: seq<Entry>, dataset: string, dates: set<Date>): (r: seq<Entry>)
    ensures forall e :: e in r <==> e in listing && !(e.dataset == dataset && e.date in dates)
    ensures dates == {} ==> r == listing
  {
    if listing == [] then []
    else
      var rest := Destroy(listing[1..], dataset, dates);
      assert forall e :: e in listing <==> e == listing[0] || e in listing[1..];
      assert dates == {} ==> listing == [listing[0]] + listing[1..];
      if listing[0].dataset == dataset && listing[0].date in dates then rest
      else [listing[0]] + rest
  }

  /** Carries out a decision for `dataset`: create today's snapshot if asked, then destroy the listed dates. */
  function Apply(listing: seq<Entry>, dataset: string, today: Date, dec: Decision): (r: seq<Entry>)
    ensures dec == NoAction ==> r == listing
  {
    var created := if dec.create then listing + [Entry(dataset, today)] else listing;
    Destroy(created, dataset, dec.destroy)
  }

  /**
    After carrying out a decision, the listing holds exactly the snapshots
    it held before plus the one created, less those of the dataset whose
    date was to be destroyed.
   */
  lemma ApplyContents(listing: seq<Entry>, dataset: string, today: Date, dec: Decision)
    ensures forall e: Entry :: e in Apply(listing, dataset, today, dec) <==>
              && (e in listing || (dec.create && e == Entry(dataset, today)))
              && !(e.dataset == dataset && e.date in dec.destroy)
  {
    var created := if dec.create then listing + [Entry(dataset, today)] else listing;
    assert forall e :: e in created <==> e in listing || (dec.create && e == Entry(dataset, today));
  }

  /** One pass of the loop body over the dataset of policy `p`, every backend operation succeeding. */
  function Step(listing: seq<Entry>, p: Policy, today: Date): seq<Entry>
  {
    var before := SnapshotsOf(listing, p.name);
    var after := SnapshotsOf(listing + [Entry(p.name, today)], p.name);
    Apply(listing, p.name, today, Decide(p, today, before, after))
  }

  /**
    A pass touches only its own dataset, and the only snapshot it can add is
    today's snapshot of that dataset.
   */
  lemma StepFrame(listing: seq<Entry>, p: Policy, today: Date)
    ensures forall e: Entry :: e.dataset != p.name ==> (e in Step(listing, p, today) <==> e in listing)
    ensures forall e: Entry :: e in Step(listing, p, today) && e !in listing ==> e == Entry(p.name, today)
  {
    var before := SnapshotsOf(listing, p.name);
    var after := SnapshotsOf(listing + [Entry(p.name, today)], p.name);
    ApplyContents(listing, p.name, today, Decide(p, today, before, after));
  }

  /** The datasets a sequence of policies covers. */
  function Names(policies: seq<Policy>): set<string>
  {
    set p | p in policies :: p.name
  }

  /** The whole loop of `main`: the datasets one after another, in configuration order. */
  function Run(listing: seq<Entry>, policies: seq<Policy>, today: Date): seq<Entry>
    decreases |policies|
  {
    if policies == [] then listing
    else Run(Step(listing, policies[0], today), policies[1..], today)
  }

  /**
    A run touches only the configured datasets, and the only snapshots it can
    add are today's snapshots of them.
   */
  lemma {:induction false} RunFrame(listing: seq<Entry>, policies: seq<Policy>, today: Date)
    decreases |policies|
    ensures forall e: Entry :: e.dataset !in Names(policies) ==>
              (e in Run(listing, policies, today) <==> e in listing)
    ensures forall e: Entry :: e in Run(listing, policies, today) && e !in listing ==>
              e.date == today && e.dataset in Names(policies)
  {
    if policies != [] {
      assert Names(policies) == {policies[0].name} + Names(policies[1..]) by {
        assert forall p :: p in policies <==> p == policies[0] || p in policies[1..];
      }
      StepFrame(listing, policies[0], today);
      RunFrame(Step(listing, policies[0], today), policies[1..], today);
    }
  }

  /** No snapshot is dated after `today`. */
  predicate NoFuture(listing: seq<Entry>, today: Date)
  {
    forall e :: e in listing ==> e.date <= today
  }

  /** A dataset that is not due is left alone. */
  lemma NotDueNoAction(listing: seq<Entry>, p: Policy, today: Date)
    requires !IsDue(p, today)
    ensures Step(listing, p, today) == listing
  {
  }

  /**
    A dataset that already has today's snapshot is left alone: nothing is
    created and nothing is destroyed (the early exit at line 122).
   */
  lemma AlreadyExistsNoAction(listing: seq<Entry>, p: Policy, today: Date)
    requires Entry(p.name, today) in listing
    ensures Step(listing, p, today) == listing
  {
    assert today in SnapshotsOf(listing, p.name);
  }

  /**
    A due dataset without today's snapshot gets it, and afterwards holds
    exactly the snapshots the policy keeps out of the re-read catalog,
    today's among them; no other dataset's snapshots change.
   */
  lemma StepCreatesAndPrunes(listing: seq<Entry>, p: Policy, today: Date)
    requires NoFuture(listing, today)
    requires IsDue(p, today) && Entry(p.name, today) !in listing
    ensures var after := SnapshotsOf(listing + [Entry(p.name, today)], p.name);
            && Elements(SnapshotsOf(Step(listing, p, today), p.name)) == KeepSet(p, after)
            && Entry(p.name, today) in Step(listing, p, today)
    ensures forall e: Entry :: e.dataset != p.name ==> (e in Step(listing, p, today) <==> e in listing)
    ensures NoFuture(Step(listing, p, today), today)
  {
    var created := listing + [Entry(p.name, today)];
    var after := SnapshotsOf(created, p.name);
    var result := Destroy(created, p.name, DeletionSet(p, after));
    StepCreates(listing, p, today);
    assert Step(listing, p, today) == result;
    CreatedIsNewest(listing, p.name, today);
    DueKeepsToday(p, today, after);
    PruneLeavesKeepSet(created, p, after);
    assert Entry(p.name, today) in result;
    assert NoFuture(result, today);
  }

  /** Once today's snapshot is added to a listing with no future snapshot, it is the newest of its dataset. */
  lemma CreatedIsNewest(listing: seq<Entry>, dataset: string, today: Date)
    requires NoFuture(listing, today)
    ensures NoFuture(listing + [Entry(dataset, today)], today)
    ensures today in SnapshotsOf(listing + [Entry(dataset, today)], dataset)
    ensures forall d :: d in SnapshotsOf(listing + [Entry(dataset, today)], dataset) ==> d <= today
  {
    var created := listing + [Entry(dataset, today)];
    assert created[|listing|] == Entry(dataset, today);
    forall d | d in SnapshotsOf(created, dataset)
      ensures d <= today
    {
      assert Entry(dataset, d) in created;
    }
  }

  /** Today's snapshot, once added to any listing, is in its dataset's re-read catalog. */
  lemma CreatedIsListed(listing: seq<Entry>, dataset: string, today: Date)
    ensures today in SnapshotsOf(listing + [Entry(dataset, today)], dataset)
  {
    assert (listing + [Entry(dataset, today)])[|listing|] == Entry(dataset, today);
  }

  /** A due dataset without today's snapshot: create it, then destroy what the re-read catalog does not keep. */
  lemma StepCreates(listing: seq<Entry>, p: Policy, today: Date)
    requires IsDue(p, today) && Entry(p.name, today) !in listing
    ensures var created := listing + [Entry(p.name, today)];
            Step(listing, p, today) == Destroy(created, p.name, DeletionSet(p, SnapshotsOf(created, p.name)))
  {
    assert today !in SnapshotsOf(listing, p.name);
  }

  /** Destroying the deletion set of a dataset's catalog leaves exactly its keep set. */
  lemma PruneLeavesKeepSet(listing: seq<Entry>, p: Policy, after: seq<Date>)
    requires after == SnapshotsOf(listing, p.name)
    ensures Elements(SnapshotsOf(Destroy(listing, p.name, DeletionSet(p, after)), p.name)) == KeepSet(p, after)
  {
    var result := Destroy(listing, p.name, DeletionSet(p, after));
    forall d | d in Elements(SnapshotsOf(result, p.name))
      ensures d in KeepSet(p, after)
    {
      assert Entry(p.name, d) in result;
    }
    forall d | d in KeepSet(p, after)
      ensures d in Elements(SnapshotsOf(result, p.name))
    {
      assert Entry(p.name, d) in listing;
      assert Entry(p.name, d) in result;
    }
  }

  /** A pass keeps every snapshot dated `today` and never adds one dated later. */
  lemma StepPreserves(listing: seq<Entry>, p: Policy, today: Date)
    requires NoFuture(listing, today)
    ensures NoFuture(Step(listing, p, today), today)
    ensures forall name :: Entry(name, today) in listing ==> Entry(name, today) in Step(listing, p, today)
  {
    if IsDue(p, today) && Entry(p.name, today) !in listing {
      StepCreatesAndPrunes(listing, p, today);
    } else if !IsDue(p, today) {
      NotDueNoAction(listing, p, today);
    } else {
      AlreadyExistsNoAction(listing, p, today);
    }
  }

  /** A pass never removes a snapshot dated `today`, whatever else the listing holds. */
  lemma StepKeepsToday(listing: seq<Entry>, p: Policy, today: Date)
    ensures forall name :: Entry(name, today) in listing ==> Entry(name, today) in Step(listing, p, today)
  {
    if !IsDue(p, today) {
      NotDueNoAction(listing, p, today);
    } else if Entry(p.name, today) in listing {
      AlreadyExistsNoAction(listing, p, today);
    } else {
      StepFrame(listing, p, today);
    }
  }

  /** After a pass over a due dataset, today's snapshot of it exists. */
  lemma StepEstablishesToday(listing: seq<Entry>, p: Policy, today: Date)
    requires NoFuture(listing, today)
    requires IsDue(p, today)
    ensures Entry(p.name, today) in Step(listing, p, today)
  {
    if Entry(p.name, today) !in listing {
      StepCreatesAndPrunes(listing, p, today);
    } else {
      AlreadyExistsNoAction(listing, p, today);
    }
  }

  /** A run keeps every snapshot dated `today` and never adds one dated later. */
  lemma {:induction false} RunPreserves(listing: seq<Entry>, policies: seq<Policy>, today: Date)
    requires NoFuture(listing, today)
    ensures NoFuture(Run(listing, policies, today), today)
    ensures forall name :: Entry(name, today) in listing ==> Entry(name, today) in Run(listing, policies, today)
    decreases |policies|
  {
    if policies != [] {
      StepPreserves(listing, policies[0], today);
      RunPreserves(Step(listing, policies[0], today), policies[1..], today);
    }
  }

  /** A run never removes a snapshot dated `today`, whatever else the listing holds. */
  lemma {:induction false} RunKeepsToday(listing: seq<Entry>, policies: seq<Policy>, today: Date)
    ensures forall name :: Entry(name, today) in listing ==> Entry(name, today) in Run(listing, policies, today)
    decreases |policies|
  {
    if policies != [] {
      StepKeepsToday(listing, policies[0], today);
      RunKeepsToday(Step(listing, policies[0], today), policies[1..], today);
    }
  }

  /** After a run, every due dataset has today's snapshot. */
  lemma {:induction false} RunEstablishesToday(listing: seq<Entry>, policies: seq<Policy>, today: Date)
    requires NoFuture(listing, today)
    ensures forall k :: 0 <= k < |policies| && IsDue(policies[k], today) ==>
              Entry(policies[k].name, today) in Run(listing, policies, today)
    decreases |policies|
  {
    if policies != [] {
      var next := Step(listing, policies[0], today);
      var r := Run(next, policies[1..], today);
      assert Run(listing, policies, today) == r;
      StepPreserves(listing, policies[0], today);
      if IsDue(policies[0], today) {
        RunEstablishesTodayHead(listing, policies, today);
      }
      RunEstablishesToday(next, policies[1..], today);
      DueTailShift(policies, today, r);
    }
  }

  /** What holds for every due policy of the tail holds for every due policy after the first. */
  lemma DueTailShift(policies: seq<Policy>, today: Date, r: seq<Entry>)
    requires policies != []
    requires forall k :: 0 <= k < |policies[1..]| && IsDue(policies[1..][k], today) ==>
               Entry(policies[1..][k].name, today) in r
    ensures forall k :: 1 <= k < |policies| && IsDue(policies[k], today) ==> Entry(policies[k].name, today) in r
  {
    forall k | 1 <= k < |policies| && IsDue(policies[k], today)
      ensures Entry(policies[k].name, today) in r
    {
      assert policies[k] == policies[1..][k - 1];
    }
  }

  /** After a run, the first dataset has today's snapshot when it is due. */
  lemma RunEstablishesTodayHead(listing: seq<Entry>, policies: seq<Policy>, today: Date)
    requires NoFuture(listing, today)
    requires policies != [] && IsDue(policies[0], today)
    ensures Entry(policies[0].name, today) in Run(listing, policies, today)
  {
    var next := Step(listing, policies[0], today);
    StepPreserves(listing, policies[0], today);
    StepEstablishesToday(listing, policies[0], today);
    RunPreserves(next, policies[1..], today);
  }


  /** A run in which every due dataset already has today's snapshot changes nothing. */
  lemma {:induction false} RunWithTodayPresentNoAction(listing: seq<Entry>, policies: seq<Policy>, today: Date)
    requires forall k :: 0 <= k < |policies| && IsDue(policies[k], today) ==>
               Entry(policies[k].name, today) in listing
    ensures Run(listing, policies, today) == listing
    decreases |policies|
  {
    if policies != [] {
      if IsDue(policies[0], today) {
        AlreadyExistsNoAction(listing, policies[0], today);
      } else {
        NotDueNoAction(listing, policies[0], today);
      }
      forall k | 0 <= k < |policies[1..]| && IsDue(policies[1..][k], today)
        ensures Entry(policies[1..][k].name, today) in listing
      {
        assert policies[1..][k] == policies[k + 1];
      }
      RunWithTodayPresentNoAction(listing, policies[1..], today);
    }
  }

  /**
    Running twice on the same day ends in the same backend state as running
    once, provided no snapshot is dated after today: the second run finds
    today's snapshot of every due dataset and leaves everything alone.
   */
  lemma RunIdempotent(listing: seq<Entry>, policies: seq<Policy>, today: Date)
    requires NoFuture(listing, today)
    ensures Run(Run(listing, policies, today), policies, today) == Run(listing, policies, today)
  {
    RunEstablishesToday(listing, policies, today);
    RunWithTodayPresentNoAction(Run(listing, policies, today), policies, today);
  }

  /**
    Configuration resolution followed by the run: a configuration error
    stops everything before any dataset is processed.
   */
  function RunConfig(c: Config, listing: seq<Entry>, today: Date): (r: Result<seq<Entry>, ConfigError>)
    ensures r.Err? <==> exists j :: 0 <= j < |Datasets(c)| && Datasets(c)[j].name.None?
    ensures r.Err? ==> r.error.index < |Datasets(c)| && Datasets(c)[r.error.index].name.None?
    ensures r.Ok? && NoFuture(listing, today) ==> NoFuture(r.value, today)
    ensures r.Ok? && NoFuture(listing, today) ==>
              forall k :: 0 <= k < |Datasets(c)| && Datasets(c)[k].name.Some? &&
                          IsDue(ResolveEntry(c, Datasets(c)[k], Datasets(c)[k].name.value), today) ==>
                            Entry(Datasets(c)[k].name.value, today) in r.value
    ensures r.Ok? ==>
              forall e: Entry :: (forall k :: 0 <= k < |Datasets(c)| ==> Datasets(c)[k].name != Some(e.dataset)) ==>
                (e in r.value <==> e in listing)
  {
    match ResolveDatasetConfigs(c)
    case Err(e) => Err(e)
    case Ok(policies) =>
      ResolvedRun(c, policies, listing, today);
      Ok(Run(listing, policies, today))
  }

  /** Each resolved policy is the one its dataset table prescribes, under the table's name. */
  lemma ResolvedPolicies(c: Config, policies: seq<Policy>)
    requires ResolveDatasetConfigs(c) == Ok(policies)
    ensures |policies| == |Datasets(c)|
    ensures forall k :: 0 <= k < |policies| ==>
              && Datasets(c)[k].name == Some(policies[k].name)
              && policies[k] == ResolveEntry(c, Datasets(c)[k], policies[k].name)
  {
    var ds := Datasets(c);
    forall k | 0 <= k < |policies|
      ensures ds[k].name == Some(policies[k].name)
      ensures policies[k] == ResolveEntry(c, ds[k], policies[k].name)
    {
      assert ResolvedFrom(policies[k], c, ds[k], ds[k].name.value);
    }
  }

  /** The run over the resolved policies, stated in terms of the configuration's dataset tables. */
  lemma ResolvedRun(c: Config, policies: seq<Policy>, listing: seq<Entry>, today: Date)
    requires ResolveDatasetConfigs(c) == Ok(policies)
    ensures NoFuture(listing, today) ==> NoFuture(Run(listing, policies, today), today)
    ensures NoFuture(listing, today) ==>
              forall k :: 0 <= k < |Datasets(c)| && Datasets(c)[k].name.Some? &&
                          IsDue(ResolveEntry(c, Datasets(c)[k], Datasets(c)[k].name.value), today) ==>
                            Entry(Datasets(c)[k].name.value, today) in Run(listing, policies, today)
    ensures forall e: Entry :: (forall k :: 0 <= k < |Datasets(c)| ==> Datasets(c)[k].name != Some(e.dataset)) ==>
              (e in Run(listing, policies, today) <==> e in listing)
  {
    ResolvedPolicies(c, policies);
    if NoFuture(listing, today) {
      RunPreserves(listing, policies, today);
      RunEstablishesToday(listing, policies, today);
    }
    RunFrame(listing, policies, today);
  }
}

=== FILE: wrappers.dfy ===
/** Failure-carrying values used where the source raises or looks up optional keys. */
module Wrappers {

  /** A value that may be absent, as an optional key of a configuration table. */
  datatype Option<+T> = None | Some(value: T) {

    /** The carried value, or `default` when there is none. */
    function GetOr(default: T): T {
      match this
      case Some(v) => v
      case None => default
    }
  }

  /** The outcome of an operation that either succeeds with a value or fails with an error. */
  datatype Result<+T, +E> = Ok(value: T) | Err(error: E)
}
